=== FILE: README.md ===
# Postal-code record codecs

A Dafny model of the record codecs of a postal-code file tool. The tool
stores postal-code records in two file formats.

- **Delimited CSV** (`PostalCodeBuffer`). A file starts with a fixed
  header line whose quoted column names contain embedded newlines. Each
  record is one line ending at '\n'. Fields inside a record end at ','.
- **Length-indicated** (`NewPostalCodeBuffer` with `PostalCodeHeader`).
  A file starts with a header record: a 2-byte size and then
  '|'-terminated tokens describing the file. Each data record is a 2-byte
  length followed by that many bytes.

Both formats share the field codec of `PostalCodeBuffer`:

- `pack` appends a field and a ',' at the cursor;
- `unpack` cuts the next ','-terminated field;
- `clear` empties the buffer.

The model has six modules:

- `Bytes`: bytes as 8-bit `char`s, the delimiters, `strlen`, in-place
  stores, two-byte integers and decimal text.
- `Streams`: the part of `istream`/`ostream` the codecs use, over an
  in-memory byte sequence with `eof`/`fail` flags.
- `RecordBuffer`: the buffer, `pack`, `unpack`, `clear` and `operator=`.
- `DelimitedFraming`: `readHeader` (the header skip), `writeHeader`,
  `read`, `write`, `dRead` and `dWrite` of the CSV format.
- `PostalCodeHeader`: the header manager, meaning its constructor,
  `clear`, `readHeaderHelper`, `readHeader`, `validateHeader` and
  `writeHeader`.
- `LengthFraming`: the constructor, `read`, `write`, `readHeader` and
  `writeHeader` of the length-indicated format.

Every C++ member is a pure function. It takes the object and the stream
and returns their new states with the C++ return value. Each operation is
also related by a lemma to something defined independently of it: the
operation that undoes it (a write and the read of its output), a reference
definition it is proved equal to, or another operation it agrees with
(`clear` of the header and its constructor, `operator=` and `unpack`).
Lemmas about concrete or general inputs pin down the code's quirks.

Behaviour the model keeps as the code has it:

- **`pack` moves the cursor before its capacity test.** A refused `pack`
  still moves `nextByte` and leaves `length` as it was (`RecordBuffer.Pack`).
- **`unpack` may read past the content.** It tests for the ',' at the
  index where the scan stopped, even when that index equals `length`.
  Stale storage can therefore turn into a field
  (`RecordBuffer.UnpackReadsPastContent`).
- **The delimited `read` appends a ',' unconditionally.** It stores it at
  `buffer[length]`, which may be index `maxBytes`, one cell past the
  array. The model's storage grows, so such a store stays visible
  (`DelimitedFraming.ReadOverflowStoresPastCapacity`).
- **Two-byte numbers are decoded through signed `char`s.** This affects
  `readHeader`'s size and numbers, the version, record size and field
  count `validateHeader` compares, and `NewPostalCodeBuffer::read`'s
  length. A value whose low byte is 0x80 or more comes back as 0xFF00 plus
  that byte (`Bytes.SignedDecodeExactness`). As a result:
  - a record of length 128 is written but never read back;
  - a header text of such a length is refused by `readHeader` but accepted
    by `validateHeader`, which reads the size as a plain `unsigned short`;
  - `validateHeader` refuses a file written from the very header it holds
    when that header's version, record size or field count has such a low
    byte, which is why its round-trip lemmas require those numbers to
    decode exactly.
- **`readHeader` never resizes `fieldInfo`.** Field descriptions only land
  in slots the receiving header already has. A freshly constructed
  header keeps none of them.
- **`readHeader` assigns before it checks for trailing text.** It assigns
  every attribute, then fails if text is left after the primary key.
- **The `mb` argument of the `NewPostalCodeBuffer` constructor is
  ignored.** The buffer always gets the default capacity of 1000.

## Model

| member | source | states |
|---|---|---|
| Bytes.DecodeU16Signed | PostalCodeHeader.cpp:63 | `(field[1] << 8) \| field[0]` on signed chars equals the true little-endian value when the low byte is below 0x80; otherwise the high byte is 0xFF and the low byte is kept |
| Bytes.SignedDecodeExactness | NewPostalCodeBuffer.cpp:59-60 | decoding the two stored bytes of `v` through signed chars gives `v` back if and only if its low byte is below 0x80 or its high byte is 0xFF |
| Bytes.Strlen | PostalCodeBuffer.cpp:176 | `strlen` counts exactly the bytes before the first NUL |
| Bytes.DecimalText | PostalCodeHeader.cpp:213 | the decimal text of an `int` holds no '\|', and a non-negative value's text is all digits denoting that value |
| Streams.Get | PostalCodeBuffer.cpp:100 | `get()` yields the next byte and advances exactly when the stream is good with data left; otherwise it yields EOF and records failure |
| Streams.ReadN | NewPostalCodeBuffer.cpp:68 | `read(buf, n)` leaves the stream good if and only if `n` bytes remained, and then yields exactly those bytes |
| Streams.Write | NewPostalCodeBuffer.cpp:88 | `write` stores its bytes at the put position if and only if the sink was not failed and has room; a failed write changes nothing |
| RecordBuffer.NewBuffer | PostalCodeBuffer.cpp:4 | a new buffer has the requested capacity and no content |
| RecordBuffer.Clear | PostalCodeBuffer.cpp:218-222 | clearing empties the content and resets the cursor, keeping capacity and storage |
| RecordBuffer.ClearIdempotent | PostalCodeBuffer.cpp:218-222 | clearing twice is clearing once |
| RecordBuffer.Pack | PostalCodeBuffer.cpp:168-189 | the call succeeds if and only if the size is within the C string and the field and its ',' fit the capacity; a size beyond the C string changes nothing; success stores the field prefix and one ',' at the old cursor, keeps the bytes before it and stays within capacity; overflow moves only the cursor |
| RecordBuffer.Unpack | PostalCodeBuffer.cpp:191-216 | the call succeeds if and only if the scan from the cursor stops at a ',' and the field is shorter than the caller's array (or no array size is given), returning the field's length; success returns a ','-free field equal to the bytes at the cursor, followed there by a ',', and moves the cursor past it; a field too long for the caller's array is refused and a refusal changes nothing |
| RecordBuffer.UnpackReadsPastContent | PostalCodeBuffer.cpp:201-207 | a buffer with content "ab," and a stale ',' after it unpacks an empty field and leaves the cursor past `length` |
| RecordBuffer.Assign | PostalCodeBuffer.cpp:22-36 | assignment copies content and cursor; it reallocates to the source's capacity only when the destination's capacity is below the source's length, and otherwise keeps the destination's storage beyond the copy |
| RecordBuffer.AssignUnpack | PostalCodeBuffer.cpp:22-36 | unpacking an assigned copy cuts the same field, with the same length and cursor, as unpacking the source, when the field ends inside the content |
| RecordBuffer.PackAllAppends | PostalCodeBuffer.cpp:168-189 | packing ','- and NUL-free fields that fit appends exactly their ','-terminated layout, and each call returns its field's length |
| RecordBuffer.UnpackAllFields | PostalCodeBuffer.cpp:191-216 | unpacking a ','-terminated layout at the cursor yields its fields in order with their lengths and ends just past it |
| RecordBuffer.PackUnpackRoundTrip | PostalCodeBuffer.cpp:168-216 | fields packed into a cleared buffer unpack, from offset 0, to the same fields in order |
| DelimitedFraming.QuoteScanStopsUnquoted | PostalCodeBuffer.cpp:45-54 | the '\n' the header scan stops after lies outside quotes |
| DelimitedFraming.QuoteScanSkipsQuoted | PostalCodeBuffer.cpp:45-54 | every '\n' the header scan passes over lies inside quotes |
| DelimitedFraming.SkipHeader | PostalCodeBuffer.cpp:38-65 | success returns the position of a good stream; failure returns -1 with the error flags cleared; the data is never changed |
| DelimitedFraming.SkipHeaderMatchesSpec | PostalCodeBuffer.cpp:38-65 | the step-by-step header skip equals the reference skip (stop past the first unquoted '\n', or fail at the end) on every stream |
| DelimitedFraming.SkipHeaderOutcome | PostalCodeBuffer.cpp:38-65 | on success the stream is good just past an unquoted '\n', every earlier '\n' is quoted, and the result is that position; on failure the flags are cleared and the stream is at its end |
| DelimitedFraming.WriteHeader | PostalCodeBuffer.cpp:67-80 | the header line is stored at the start of the sink and its length returned, exactly when the sink was usable and has room |
| DelimitedFraming.SkipWrittenHeader | PostalCodeBuffer.cpp:38-80 | skipping the header of a file whose header was just written stops exactly after it, despite the newlines inside its quoted names |
| DelimitedFraming.ReadRecord | PostalCodeBuffer.cpp:82-120 | `read` clears the buffer and leaves the bytes it read followed by one ',' as the content, with the cursor at 0 |
| DelimitedFraming.ReadStepsMatchSpec | PostalCodeBuffer.cpp:82-120 | the step-by-step read loop equals the reference reading (by where the next '\n' lies) on every stream and capacity |
| DelimitedFraming.ReadRecordOutcome | PostalCodeBuffer.cpp:82-120 | `read` succeeds if and only if the stream is good, data remains and fewer than `maxBytes` bytes precede the next '\n' or the end; then the content is those bytes and ',', the result is the start position, and the stream is past the '\n'; a failure clears the flags |
| DelimitedFraming.ReadOverflowStoresPastCapacity | PostalCodeBuffer.cpp:93-111 | when `maxBytes` bytes without a '\n' are available, `read` fails, yet the content becomes those bytes and a ',', so `length` is `maxBytes + 1` and the ',' sits at index `maxBytes` |
| DelimitedFraming.WriteRecord | PostalCodeBuffer.cpp:122-139 | `write` stores the content and one '\n' at the put position and returns it, exactly when the sink was good and has room |
| DelimitedFraming.WriteThenRead | PostalCodeBuffer.cpp:82-139 | a '\n'-free record written at `p` is read back from `p` as its content and one more ',' when it fits the reader |
| DelimitedFraming.DirectRead | PostalCodeBuffer.cpp:141-154 | `dRead` at an index outside the file fails and leaves the buffer unchanged |
| DelimitedFraming.DirectWrite | PostalCodeBuffer.cpp:156-166 | `dWrite` succeeds exactly at an index inside the file on a usable sink with room for the record and its '\n', returns that index, and stores the record there |
| DelimitedFraming.DirectWriteThenRead | PostalCodeBuffer.cpp:141-166 | a record stored by `dWrite` at an index is read back by `dRead` at that index |
| DelimitedFraming.RecordFileRoundTrip | PostalCodeBuffer.cpp:82-216 | fields packed, written as a line and read back from where they were written unpack unchanged and in order |
| PostalCodeHeader.DefaultHeader | PostalCodeHeader.cpp:4-14 | the constructor's header is well formed, with no field descriptions and a zero record count |
| PostalCodeHeader.ClearHeader | PostalCodeHeader.cpp:238-249 | `clear` keeps the record count, empties the field descriptions, and installs texts containing '\|', so a cleared header is not well formed |
| PostalCodeHeader.ClearedIsDefault | PostalCodeHeader.cpp:238-249 | a cleared header is the constructor's header except for the kept record count and the '\|' in place of '/' in the structure and index schema; clearing twice is clearing once |
| PostalCodeHeader.NextToken | PostalCodeHeader.cpp:18-33 | the token holds no '\|'; with a '\|' present, the string is token, '\|' and rest; without one, the token is the whole string and nothing remains |
| PostalCodeHeader.NextTokenAfter | PostalCodeHeader.cpp:18-33 | splitting a '\|'-free token followed by '\|' gives back the token and the rest |
| PostalCodeHeader.TakeTerminated | PostalCodeHeader.cpp:52-89 | successive splits of a '\|'-terminated layout yield its pieces in order and leave the rest of the layout |
| PostalCodeHeader.GetCharsIsRead | PostalCodeHeader.cpp:52-53 | the character-by-character loop reads exactly what one `read` of the same count reads |
| PostalCodeHeader.ReadHeader | PostalCodeHeader.cpp:37-100 | the stream stays on the same data; an unusable stream leaves the header unchanged with result -1; success leaves the stream just past the header record; `fieldInfo` keeps its size |
| PostalCodeHeader.GetChars | PostalCodeHeader.cpp:52-55 | the character loop leaves the stream good if and only if it was good and `n` bytes remained, and then yields exactly those bytes |
| PostalCodeHeader.ReadHeaderOnRecord | PostalCodeHeader.cpp:37-100 | on a file holding a size that decodes exactly and a text of that size, `readHeader` assigns what parsing the text gives, ends just past the text, and succeeds if and only if parsing consumes the whole text |
| PostalCodeHeader.ReadHeaderOnMisreadSize | PostalCodeHeader.cpp:44-56 | when the stored size has a low byte of 0x80 or more and the file is shorter than the misread size, `readHeader` fails and leaves every attribute as it was |
| PostalCodeHeader.ParseWritten | PostalCodeHeader.cpp:59-92 | parsing the text `writeHeader` builds recovers every attribute of a well-formed header whose numbers decode exactly, with field descriptions only in the slots the receiver already has |
| PostalCodeHeader.ReadWrittenHeader | PostalCodeHeader.cpp:37-100 | `readHeader` on a file `writeHeader` just wrote recovers the header and returns the record's length on disk, when the header is well formed and its numbers and size decode exactly |
| PostalCodeHeader.ReadWrittenHeaderExact | PostalCodeHeader.cpp:37-100 | reading into a header with one slot per field description gives back exactly the written header |
| PostalCodeHeader.ReadIntoDefaultDropsFieldInfo | PostalCodeHeader.cpp:88-89 | reading a written header into a freshly constructed one reports success but keeps no field description |
| PostalCodeHeader.ReadHeaderTrailingText | PostalCodeHeader.cpp:59-96 | when text follows the primary key, `readHeader` returns -1 but has already assigned every attribute |
| PostalCodeHeader.ReadHeaderMisreadsSize | PostalCodeHeader.cpp:48 | a header whose text length has a low byte of 0x80 or more is refused by `readHeader`, which keeps its old attributes, yet accepted by `validateHeader` |
| PostalCodeHeader.ValidateHeader | PostalCodeHeader.cpp:102-197 | acceptance leaves the stream good just past the header record and returns its length on disk |
| PostalCodeHeader.ValidateHeaderOnRecord | PostalCodeHeader.cpp:102-197 | on a file holding a size and a text of that size, `validateHeader` ends just past the text and succeeds if and only if every compared token matches and the text ends with the primary key's token; the header itself is never changed |
| PostalCodeHeader.ValidateLayout | PostalCodeHeader.cpp:127-193 | the token comparisons on a written text succeed if and only if the expected header agrees with the written one on every compared attribute |
| PostalCodeHeader.ValidateWrittenHeader | PostalCodeHeader.cpp:102-197 | `validateHeader` on a file `writeHeader` just wrote accepts exactly the headers that agree with the written one |
| PostalCodeHeader.ValidateIgnoresRecordCount | PostalCodeHeader.cpp:165-166 | a header validates against its own file whatever record count the file holds |
| PostalCodeHeader.WriteHeader | PostalCodeHeader.cpp:199-236 | the write succeeds if and only if the sink is usable and has room; it stores the 16-bit size and then the text from offset 0, and returns the size modulo 2^16 |
| PostalCodeHeader.FixedTokensValues | PostalCodeHeader.cpp:59-85 | each of the eight leading tokens of a written header decodes back to its attribute; two-byte numbers need to decode exactly |
| PostalCodeHeader.DigitTokenValue | PostalCodeHeader.cpp:71 | a single-digit size format is read back from its decimal token |
| LengthFraming.Create | NewPostalCodeBuffer.cpp:4-21 | whatever the argument, the buffer is empty with the default capacity of 1000; the header has structure "LENGTH/DELIM", version 1, record size 0, size format 1, the six postal-code field descriptions and primary key "zipCode", keeps the header constructor's other defaults, and is well formed with numbers that decode exactly |
| LengthFraming.CreatedBufferRejects128 | NewPostalCodeBuffer.cpp:4 | a buffer created with any argument writes a 128-byte record that a buffer created the same way cannot read back |
| LengthFraming.LRead | NewPostalCodeBuffer.cpp:48-80 | at end of file nothing changes; with no 2-byte length to read it fails; otherwise it succeeds if and only if the signed-char decoded length fits the capacity and the data, and then the content is exactly that many bytes after the length, the result is the start address and the stream is good past the record; a failure leaves the buffer empty |
| LengthFraming.LWrite | NewPostalCodeBuffer.cpp:82-98 | the write succeeds if and only if the sink is usable and has room; it stores the 16-bit length and the content at the put position and returns that position |
| LengthFraming.LWriteHeader | NewPostalCodeBuffer.cpp:39-46 | only the record count, index file name and index schema of the header change, and the header's own write is performed |
| LengthFraming.LReadHeader | NewPostalCodeBuffer.cpp:31-37 | only the index file name and index schema of the header change, and the result is the header's validation |
| LengthFraming.WriteThenReadRecord | NewPostalCodeBuffer.cpp:48-98 | a record whose length decodes exactly is read back, at the address `write` returned, into any buffer with room for it |
| LengthFraming.WriteThenReadRejectsLength | NewPostalCodeBuffer.cpp:59-66 | a record whose length has a low byte of 0x80 or more is written, but read back as a failure with an empty buffer by any capacity below 0xFF00 |
| LengthFraming.HeaderRoundTrip | NewPostalCodeBuffer.cpp:31-46 | a written header is accepted by a reader with the same schema if and only if the index file name and schema given to both calls agree |
| LengthFraming.CreatedHeaderRoundTrip | NewPostalCodeBuffer.cpp:4-46 | a buffer created with any argument reads back the header another such buffer writes |
| LengthFraming.LengthFileRoundTrip | NewPostalCodeBuffer.cpp:48-98 | fields packed, written as a length-indicated record and read back unpack unchanged and in order when the length decodes exactly |

## Left out

- `main.cpp` and the `PostalCode` class are not part of this model. They drive the codecs and hold the parsed records.
- Memory management is not modelled: `new`/`delete`, destructors, the copy constructor, and `delete` used where `delete[]` was needed.
- Getters and setters are not modelled as members. They appear as datatype field reads and updates.
- Streams are modelled only as far as the codecs use them: an in-memory sequence with a position and two flags. Buffering, locales, `badbit` and output past a sink's end are left out. A sink's capacity is a `limit` parameter.
- Virtual dispatch is not modelled. `dRead`/`dWrite` are modelled with the delimited `read`/`write` only, although on a `NewPostalCodeBuffer` they would reach its length-indicated `read`/`write`. `NewPostalCodeBuffer::readHeader` overrides the base's virtual `readHeader` (same parameters); its `writeHeader` takes extra parameters and hides the base's. Each class's versions are modelled as separate functions.
- Seeks follow string-stream semantics: `seekg`/`seekp` to a position past the end of the data fails. A file stream accepts such a position; there `dRead` would still run `read` (storing the EOF char and a ',' and returning -1) and `dWrite` would extend the file. `DirectRead`'s "buffer unchanged" outside the file and `DirectWrite`'s refusal rest on this choice. Indices outside the file are excluded by `dRead`'s documented precondition (PostalCodeBuffer.h:72).
- `int` positions and lengths are unbounded integers, so overflow past 2^31 is not modelled. 16-bit truncation is modelled where the code stores into an `unsigned short`.
- Uninitialised heap cells and the uninitialised bytes of `read`'s 2-byte temporary are modelled as NUL.
- `readHeader`'s `fieldInfo[i] = ...` past the vector's size is undefined in C++. The model drops such stores, which is what "the vector keeps its size" means.
- `validateHeader` comparing against `fieldInfo[i]` past the vector's size is undefined. The model counts it as a mismatch.
- Self-assignment `b = b` is not modelled: `RecordBuffer.Assign` takes the destination and the source as separate values. `operator=` (PostalCodeBuffer.cpp:22-36) has no self-assignment guard, so when it reallocates (possible after `read` leaves `length` at `maxBytes + 1`) it copies from the array it has just deleted, which is undefined behaviour.
- A token shorter than two bytes, read as a number, is read with NUL in place of the missing byte (the C++ string terminator).
- PostalCodeHeader.ReadHeader: its own contract states only the failure on an unusable stream, the position after success and the unchanged size of `fieldInfo`. What it reads from a well-formed file is stated in `ReadHeaderOnRecord` and `ReadWrittenHeader`.
- PostalCodeHeader.ValidateHeader: its own contract states only where an accepted stream ends. When it accepts is stated in `ValidateHeaderOnRecord` and `ValidateWrittenHeader`.
- DelimitedFraming.SkipHeader: its own contract states only the shape of success and failure. Where the skip stops (just past the first '\n' outside quotes, or at the end with an error) is stated in `SkipHeaderOutcome` and `SkipHeaderMatchesSpec`.
- DelimitedFraming.DirectRead: its contract states only the failure at an index outside the file. What it reads inside the file follows from `ReadRecordOutcome` and is stated in `DirectWriteThenRead`.
- Header `clear` is documented as setting "all attributes to their default values" (PostalCodeHeader.h:65). The code keeps the record count and installs texts containing '|' where the constructor uses '/'. The model follows the code (`PostalCodeHeader.ClearedIsDefault`).
- The header's 2-byte numbers are documented as `unsigned short` (PostalCodeHeader.h:16-24). The code decodes them through signed `char`s, and the model follows the code.
- `readHeader` is documented as setting the attributes (PostalCodeHeader.h:42). The code loses field descriptions beyond the receiving vector's size and misreads some sizes, and the model follows the code.

=== FILE: bytes.dfy ===
/** Byte-level vocabulary shared by the postal-code codecs: a C++ `char` as
    an 8-bit code unit, the delimiters, searching, in-place overwriting,
    two-byte little-endian integers (both the correct decoding and the
    signed-char decoding the C++ code performs) and decimal text. */
module Bytes {

  /** A C++ `char`, seen as its 8-bit code unit. */
  type Byte = c: char | c as int < 256

  /** A C++ `unsigned short`. */
  type U16 = n: int | 0 <= n < 0x1_0000

  const RecordDelim: Byte := '\n'
  const FieldDelim: Byte := ','
  const HeaderDelim: Byte := '|'
  const Quote: Byte := '"'
  const Nul: Byte := '\0'

  /** What `char ch = file.get()` holds after a failed get: EOF (-1) narrowed to 8 bits. */
  const EofChar: Byte := 0xFF as char

  /** The value of a `char` holding `c` once promoted to `int` (`char` is signed). */
  function Signed(c: Byte): (v: int)
    ensures -0x80 <= v < 0x80
    ensures v % 0x100 == c as int
  {
    if c as int < 0x80 then c as int else c as int - 0x100
  }

  /** The byte at index `i` of a C++ string, reading NUL at and past its end. */
  function ByteAt(s: seq<Byte>, i: nat): Byte
  {
    if i < |s| then s[i] else Nul
  }

  /** The index of the first `x` in `s`, or `|s|` when there is none. */
  function Find(s: seq<Byte>, x: Byte): (i: nat)
    ensures i <= |s|
    ensures i < |s| ==> s[i] == x
    ensures forall j :: 0 <= j < i ==> s[j] != x
  {
    if |s| == 0 then 0
    else if s[0] == x then 0
    else 1 + Find(s[1..], x)
  }

  /** `strlen`: the bytes before the first NUL; a sequence holding no NUL
      stands for a string whose terminator lies just past its end. */
  function Strlen(s: seq<Byte>): (n: nat)
    ensures n <= |s|
    ensures Nul !in s[..n]
    ensures n < |s| ==> s[n] == Nul
    ensures Nul !in s ==> n == |s|
  {
    var n := Find(s, Nul);
    assert forall j :: 0 <= j < n ==> s[..n][j] == s[j];
    n
  }

  /** `d` with `b` copied in at offset `p` (a `memcpy` or a stream write);
      storage between the old end and `p` reads as NUL. */
  function Overwrite(d: seq<Byte>, p: nat, b: seq<Byte>): (r: seq<Byte>)
    ensures |r| == if p + |b| > |d| then p + |b| else |d|
    ensures r[p..p + |b|] == b
    ensures forall i :: 0 <= i < |r| && !(p <= i < p + |b|) ==> r[i] == ByteAt(d, i)
  {
    var head := if p <= |d| then d[..p] else d + seq(p - |d|, _ => Nul);
    var tail := if p + |b| < |d| then d[p + |b|..] else [];
    head + b + tail
  }

  /** The first `x` in `c + [x] + t` is the one after `c` when `c` holds none. */
  lemma FindAfterPrefix(c: seq<Byte>, x: Byte, t: seq<Byte>)
    requires x !in c
    ensures Find(c + [x] + t, x) == |c|
  {
    var s := c + [x] + t;
    assert forall j :: 0 <= j < |c| ==> s[j] == c[j];
    assert s[|c|] == x;
  }

  lemma OverwriteNothing(d: seq<Byte>)
    ensures Overwrite(d, 0, []) == d
  {
  }

  /** Two adjacent stores are one store of the concatenation. */
  lemma OverwriteConcat(d: seq<Byte>, p: nat, a: seq<Byte>, b: seq<Byte>)
    ensures Overwrite(Overwrite(d, p, a), p + |a|, b) == Overwrite(d, p, a + b)
  {
    var m := Overwrite(d, p, a);
    var r1 := Overwrite(m, p + |a|, b);
    var r2 := Overwrite(d, p, a + b);
    assert |r1| == |r2|;
    forall i | 0 <= i < |r1| ensures r1[i] == r2[i] {
      if p + |a| <= i < p + |a| + |b| {
        assert r1[i] == r1[p + |a|..p + |a| + |b|][i - p - |a|];
        assert r2[i] == r2[p..p + |a| + |b|][i - p];
      } else if p <= i < p + |a| {
        assert r2[i] == r2[p..p + |a| + |b|][i - p];
        assert m[i] == m[p..p + |a|][i - p];
      }
    }
  }

  /** Storing `a` followed by one `x` at `p`: where each lands, and what
      the storage up to the `x` then holds. */
  lemma OverwriteTerminated(d: seq<Byte>, p: nat, a: seq<Byte>, x: Byte)
    ensures var m := Overwrite(d, p, a + [x]);
            && m[p..p + |a|] == a && m[p + |a|] == x
            && (p <= |d| ==> m[..p] == d[..p] && m[..p + |a| + 1] == d[..p] + a + [x])
  {
    var w := a + [x];
    var m := Overwrite(d, p, w);
    assert m[p..p + |w|] == w;
    assert m[p..p + |a|] == m[p..p + |w|][..|a|];
    assert m[p + |a|] == m[p..p + |w|][|a|];
    if p <= |d| {
      assert forall i :: 0 <= i < p ==> m[i] == d[i];
      assert m[..p] == d[..p];
      assert m[..p + |w|] == m[..p] + m[p..p + |w|];
    }
  }

  /** The two bytes of an `unsigned short` in memory (little-endian host). */
  function EncodeU16(v: U16): (s: seq<Byte>)
    ensures |s| == 2
    ensures s[0] as int + 0x100 * s[1] as int == v
  {
    [(v % 0x100) as char, (v / 0x100) as char]
  }

  /** The `unsigned short` whose memory bytes are `lo`, `hi`. */
  function DecodeU16(lo: Byte, hi: Byte): (v: U16)
    ensures EncodeU16(v) == [lo, hi]
  {
    lo as int + 0x100 * hi as int
  }

  /** `(hi << 8) | lo` evaluated on sign-extended `char`s and stored into an
      `unsigned short`. When `lo` is 0x80 or more its sign extension sets
      every bit from bit 8 upwards, so the OR equals `lo`'s own negative
      value and discards `hi`; otherwise the low byte of `hi << 8` is clear
      and the OR is a sum. Storing into 16 bits reduces modulo 2^16. */
  function DecodeU16Signed(lo: Byte, hi: Byte): (v: U16)
    ensures lo as int < 0x80 ==> v == DecodeU16(lo, hi)
    ensures lo as int >= 0x80 ==> v / 0x100 == 0xFF && v % 0x100 == lo as int
  {
    if lo as int < 0x80 then (Signed(hi) * 0x100 + lo as int) % 0x1_0000
    else Signed(lo) % 0x1_0000
  }

  /** The values the signed-char decoding gets back from their own bytes. */
  predicate DecodesExactly(v: U16)
  {
    v % 0x100 < 0x80 || v / 0x100 == 0xFF
  }

  /** The signed-char decoding reproduces an encoded value exactly when its
      low byte is below 0x80 or its high byte is 0xFF. */
  lemma SignedDecodeExactness(v: U16)
    ensures DecodeU16Signed(EncodeU16(v)[0], EncodeU16(v)[1]) == v <==> DecodesExactly(v)
  {
    var e := EncodeU16(v);
    assert e[0] as int == v % 0x100;
  }

  /** The bytes of two stored `unsigned short`s agree only when the values do. */
  lemma EncodeU16Injective(a: U16, b: U16)
    requires EncodeU16(a) == EncodeU16(b)
    ensures a == b
  {
    assert EncodeU16(a)[0] == EncodeU16(b)[0] && EncodeU16(a)[1] == EncodeU16(b)[1];
  }

  /** Each piece followed by one `d`: the layout of a packed record
      (`d` = ',') and of the header record (`d` = '|'). */
  function Terminated(ts: seq<seq<Byte>>, d: Byte): seq<Byte>
  {
    if |ts| == 0 then [] else ts[0] + [d] + Terminated(ts[1..], d)
  }

  predicate IsDigit(c: Byte)
  {
    '0' <= c <= '9'
  }

  function DigitChar(d: nat): (c: Byte)
    requires d < 10
    ensures IsDigit(c) && c as int - '0' as int == d
  {
    ('0' as int + d) as char
  }

  /** The number a string of decimal digits denotes. */
  function DigitsValue(s: seq<Byte>): nat
  {
    if |s| == 0 then 0
    else
      var c := s[|s| - 1];
      DigitsValue(s[..|s| - 1]) * 10 + (if IsDigit(c) then c as int - '0' as int else 0)
  }

  /** The decimal digits of `n` as `operator<<` prints them. */
  function Digits(n: nat): (s: seq<Byte>)
    ensures 1 <= |s|
    ensures forall i :: 0 <= i < |s| ==> IsDigit(s[i])
    ensures DigitsValue(s) == n
  {
    if n < 10 then [DigitChar(n)]
    else
      var s := Digits(n / 10) + [DigitChar(n % 10)];
      assert s[..|s| - 1] == Digits(n / 10);
      s
  }

  /** `ss << n` for an `int`: an optional minus sign and the digits. */
  function DecimalText(n: int): (s: seq<Byte>)
    ensures HeaderDelim !in s
    ensures n >= 0 ==> DigitsValue(s) == n && forall i :: 0 <= i < |s| ==> IsDigit(s[i])
    ensures 0 <= n < 10 ==> s == [DigitChar(n)]
  {
    var s := if n < 0 then ['-'] + Digits(-n) else Digits(n);
    assert forall i :: 0 <= i < |s| ==> s[i] == '-' || IsDigit(s[i]);
    s
  }
}

=== FILE: delimited.dfy ===
/** The record-level half of `PostalCodeBuffer`: records end at '\n',
    reading appends a ',' so the last field is terminated like the others,
    and a CSV header line (whose quoted names contain newlines) is skipped
    by a quote-aware scan. */
module DelimitedFraming {
  import opened Bytes
  import opened Streams
  import opened RecordBuffer

  /** The header line every postal-code CSV file starts with. */
  const HeaderLiteral: seq<Byte> := HeaderZip + HeaderPlace + HeaderRegion + HeaderCoords

  // The header line in four pieces, each short enough to evaluate.
  const HeaderZip: seq<Byte> := "\"Zip\nCode\","
  const HeaderPlace: seq<Byte> := "\"Place\nName\","
  const HeaderRegion: seq<Byte> := "State,County,"
  const HeaderCoords: seq<Byte> := "Lat,Long\n"

  /** Where a header scan from index `i` with quote state `q` stops: just
      past the first '\n' seen outside quotes, or -1 when the data ends
      first. Every '"' toggles the quote state. */
  function QuoteScan(data: seq<Byte>, i: nat, q: bool): (r: int)
    requires i <= |data|
    ensures r == -1 || i < r <= |data|
    ensures r != -1 ==> data[r - 1] == RecordDelim
    decreases |data| - i
  {
    if i == |data| then -1
    else if data[i] == RecordDelim && !q then i + 1
    else QuoteScan(data, i + 1, if data[i] == Quote then !q else q)
  }

  /** Whether a scan that starts at index `i` in quote state `q` is inside
      quotes once it has passed the bytes before index `k`. */
  predicate InQuotes(data: seq<Byte>, i: nat, k: nat, q: bool)
    requires i <= k <= |data|
    decreases k - i
  {
    if i == k then q else InQuotes(data, i + 1, k, if data[i] == Quote then !q else q)
  }

  /** The '\n' the scan stops after lies outside quotes. */
  lemma {:induction false} QuoteScanStopsUnquoted(data: seq<Byte>, i: nat, q: bool)
    requires i <= |data|
    ensures QuoteScan(data, i, q) != -1 ==> !InQuotes(data, i, QuoteScan(data, i, q) - 1, q)
    decreases |data| - i
  {
    if i < |data| && !(data[i] == RecordDelim && !q) {
      QuoteScanStopsUnquoted(data, i + 1, if data[i] == Quote then !q else q);
    }
  }

  /** Every '\n' the scan passes over lies inside quotes. */
  lemma {:induction false} QuoteScanSkipsQuoted(data: seq<Byte>, i: nat, q: bool, k: nat)
    requires i <= k < |data| && data[k] == RecordDelim
    requires QuoteScan(data, i, q) == -1 || k < QuoteScan(data, i, q) - 1
    ensures InQuotes(data, i, k, q)
    decreases k - i
  {
    if i < k {
      QuoteScanSkipsQuoted(data, i + 1, if data[i] == Quote then !q else q, k);
    }
  }

  /** The effect of `readHeader` on the stream and its result: the position
      just past the first unquoted '\n', or -1 with the error flags cleared
      and the stream left at its end. */
  function SkipHeaderSpec(s: InStream): (r: (InStream, int))
    requires s.Valid()
  {
    if !s.Good() then (ClearFlags(s), -1)
    else
      var k := QuoteScan(s.data, s.pos, false);
      if k == -1 then (ClearFlags(s.(pos := |s.data|)), -1) else (s.(pos := k), k)
  }

  /** The loop of the delimited `readHeader` from the state `(file, error,
      ch, quotes)`: while `ch` is not an unquoted '\n' and no error was
      seen, sample the error flags, `get(ch)` (a failed `get` leaves `ch` as
      it was) and toggle `quotes` on a '"'. */
  function SkipLoop(file: InStream, error: bool, ch: Byte, quotes: bool): (r: (InStream, bool))
    requires file.Valid()
    ensures r.0.Valid() && r.0.data == file.data
    // a loop that ends without an error ends on a good stream, provided a
    // stream already failed without an error still has to go round again
    ensures (!error && !file.Good() ==> ch != RecordDelim || quotes) && !r.1 ==> r.0.Good()
    decreases |file.data| - file.pos, if error then 0 else if file.Good() then 2 else 1
  {
    if !((ch != RecordDelim || quotes) && !error) then (file, error)
    else
      var error1 := file.eof || !file.Good();
      var got := Get(file);
      var ch1 := if got.1 != -1 then Narrow(got.1) else ch;
      SkipLoop(got.0, error1, ch1, if ch1 == Quote then !quotes else quotes)
  }

  /** `readHeader(file, ...)` of the delimited buffer: the error flags are
      sampled and the first char is got with `get()` (EOF narrowed to a
      char), the loop runs, and an error clears the stream's flags and
      yields -1; otherwise the result is `tellg()`. */
  function SkipHeader(s: InStream): (r: (InStream, int))
    requires s.Valid()
    ensures r.0.Valid() && r.0.data == s.data
    // success reports the position of a good stream
    ensures r.1 != -1 ==> r.0.Good() && r.1 == r.0.pos
    // failure leaves the flags cleared
    ensures r.1 == -1 ==> !r.0.eof && !r.0.fail
  {
    var error := s.eof || !s.Good();
    var got := Get(s);
    var ch := Narrow(got.1);
    var (file, err) := SkipLoop(got.0, error, ch, ch == Quote);
    if err then (ClearFlags(file), -1) else (file, Tellg(file))
  }

  /** Inside the loop with a good stream at `p`, the scan state `quotes`
      and no error: it stops just past the first unquoted '\n' from `p`
      on, or reaches the end of the data with an error. */
  lemma {:induction false} SkipLoopScan(data: seq<Byte>, p: nat, ch: Byte, quotes: bool)
    requires p <= |data| && (ch != RecordDelim || quotes)
    ensures var out := SkipLoop(InStream(data, p, false, false), false, ch, quotes);
            var k := QuoteScan(data, p, quotes);
            && (k != -1 ==> out == (InStream(data, k, false, false), false))
            && (k == -1 ==> out.1 && out.0.pos == |data|)
    decreases |data| - p
  {
    var file := InStream(data, p, false, false);
    if p == |data| {
      var f1 := file.(eof := true, fail := true);
      var q1 := if ch == Quote then !quotes else quotes;
      assert SkipLoop(file, false, ch, quotes) == SkipLoop(f1, false, ch, q1);
      assert SkipLoop(f1, false, ch, q1) == SkipLoop(f1, true, ch, if ch == Quote then !q1 else q1);
    } else {
      var q1 := if data[p] == Quote then !quotes else quotes;
      assert SkipLoop(file, false, ch, quotes) == SkipLoop(file.(pos := p + 1), false, data[p], q1);
      if data[p] != RecordDelim || q1 {
        SkipLoopScan(data, p + 1, data[p], q1);
      }
    }
  }

  /** The step-for-step `readHeader` agrees with the reference on every
      stream state. */
  lemma SkipHeaderMatchesSpec(s: InStream)
    requires s.Valid()
    ensures SkipHeader(s) == SkipHeaderSpec(s)
  {
    if s.Good() && s.pos == |s.data| {
      var f1 := s.(eof := true, fail := true);
      assert SkipLoop(f1, false, EofChar, false) == SkipLoop(f1, true, EofChar, false);
    } else if s.Good() {
      var ch := s.data[s.pos];
      if ch != RecordDelim {
        SkipLoopScan(s.data, s.pos + 1, ch, ch == Quote);
      }
    }
  }

  /** What skipping the header achieves: on success the stream is good and
      just past a '\n' that lies outside quotes, every earlier '\n' from the
      start position lies inside quotes, and the result is that position.
      A failure leaves the flags cleared and the stream at the end. */
  lemma SkipHeaderOutcome(s: InStream)
    requires s.Valid()
    ensures var (file, result) := SkipHeader(s);
            && (result != -1 ==>
                  && s.Good() && file.Good() && s.pos < result <= |s.data| && file.pos == result
                  && s.data[result - 1] == RecordDelim
                  && !InQuotes(s.data, s.pos, result - 1, false)
                  && forall k :: s.pos <= k < result - 1 && s.data[k] == RecordDelim ==> InQuotes(s.data, s.pos, k, false))
            && (result == -1 ==> !file.eof && !file.fail && (s.Good() ==> file.pos == |s.data|))
  {
    SkipHeaderMatchesSpec(s);
    if s.Good() {
      QuoteScanStopsUnquoted(s.data, s.pos, false);
      var r := QuoteScan(s.data, s.pos, false);
      forall k | s.pos <= k < r - 1 && s.data[k] == RecordDelim ensures InQuotes(s.data, s.pos, k, false) {
        QuoteScanSkipsQuoted(s.data, s.pos, false, k);
      }
    }
  }

  /** `writeHeader(file)`: the header line written at the start of the sink;
      returns the position after it, or -1 if the sink was already failed. */
  function WriteHeader(out: OutStream): (r: (OutStream, int))
    requires out.Valid()
    ensures r.0.Valid()
    ensures r.1 != -1 <==> !out.fail && |HeaderLiteral| <= out.limit
    ensures r.1 != -1 ==> r.1 == |HeaderLiteral| <= |r.0.data|
    ensures r.1 != -1 ==> r.0.data[..|HeaderLiteral|] == HeaderLiteral
  {
    var error := out.fail;
    var o := Write(Seekp(out, 0), HeaderLiteral);
    assert !error && !o.fail ==> o.data[0..|HeaderLiteral|] == HeaderLiteral;
    (o, if error then -1 else Tellp(o))
  }

  datatype ReadOutcome = ReadOutcome(buf: Buffer, stream: InStream, result: int)

  /** The reference reading of a delimited record, stated by cases on where
      the first '\n' after the position lies: the bytes stored in the
      cleared buffer, the stream afterwards and the result. The bytes before
      the '\n' are stored; a last record ended by the end of the data is
      accepted too. It fails, with error flags cleared, when the stream was
      not good or `maxBytes` is not positive (one `get` is still performed),
      when `maxBytes` or more bytes precede the delimiter (having stored
      `maxBytes` of them and consumed one more), or when the data is already
      exhausted (the EOF char is then stored). */
  function ReadSpec(maxBytes: int, s: InStream): (seq<Byte>, InStream, int)
    requires s.Valid()
  {
    if !s.Good() || maxBytes <= 0 then ([], ClearFlags(Get(s).0), -1)
    else
      var rest := s.data[s.pos..];
      var n := Find(rest, RecordDelim);
      if n < maxBytes && n < |rest| then (rest[..n], s.(pos := s.pos + n + 1), s.pos)
      else if n < maxBytes && 0 < n then (rest, s.(pos := |s.data|, eof := true, fail := true), s.pos)
      else if n < maxBytes then ([EofChar], ClearFlags(s), -1)
      else
        var used := if maxBytes < |rest| then maxBytes + 1 else |rest|;
        (rest[..maxBytes], ClearFlags(s.(pos := s.pos + used)), -1)
  }

  /** The loop of the delimited `read` from the state `(acc, file, error,
      eof, ch)`, where `acc` holds the bytes stored since the buffer was
      cleared: while `ch` is not '\n' and neither flag is set, store `ch`,
      recompute `error` from the length and the stream, `get` the next char
      and sample `eof` after it. Yields the bytes stored, the stream and the
      final error flag. */
  function ReadLoop(maxBytes: int, acc: seq<Byte>, file: InStream, error: bool, eof: bool, ch: Byte)
    : (r: (seq<Byte>, InStream, bool))
    requires file.Valid()
    ensures r.1.Valid() && r.1.data == file.data
    decreases |file.data| - file.pos, if eof || error then 0 else 1
  {
    if ch == RecordDelim || eof || error then (acc, file, error)
    else
      var acc1 := acc + [ch];
      var error1 := |acc1| >= maxBytes || !file.Good();
      var got := Get(file);
      ReadLoop(maxBytes, acc1, got.0, error1, got.0.eof, Narrow(got.1))
  }

  /** The stream side of the delimited `read(file)`: the result is the
      starting position (`tellg`), `error` and `eof` are sampled before the
      first `get`, the loop runs from an empty buffer, and an error clears
      the stream's flags and yields -1. Gives the bytes stored, the stream
      and the result. */
  function ReadSteps(maxBytes: int, s: InStream): (r: (seq<Byte>, InStream, int))
    requires s.Valid()
    ensures r.1.Valid() && r.1.data == s.data
  {
    var result := Tellg(s);
    var error := 0 >= maxBytes || !s.Good();
    var eof := s.eof;
    var got := Get(s);
    var (acc, file, err) := ReadLoop(maxBytes, [], got.0, error, eof, Narrow(got.1));
    if err then (acc, ClearFlags(file), -1) else (acc, file, result)
  }

  /** `read(file)` of the delimited buffer: the buffer is cleared, the
      bytes the loop reads are stored from index 0, and a ',' is appended
      whatever happened. */
  function ReadRecord(b: Buffer, s: InStream): (o: ReadOutcome)
    requires b.Valid() && s.Valid()
    ensures o.buf.Valid() && o.buf.maxBytes == b.maxBytes && o.buf.nextByte == 0
    ensures o.stream.Valid() && o.stream.data == s.data
    ensures o.buf.Content() == ReadSteps(b.maxBytes, s).0 + [FieldDelim]
  {
    var (acc, file, result) := ReadSteps(b.maxBytes, s);
    ReadOutcome(Append(Load(Clear(b), acc), FieldDelim), file, result)
  }

  /** A `read` that runs into the capacity before any '\n' fails, yet stores
      its ',' at `buffer[maxBytes]`, one cell past the array, leaving
      `length` at `maxBytes + 1`. */
  lemma ReadOverflowStoresPastCapacity(b: Buffer, s: InStream)
    requires b.Valid() && s.Valid() && s.Good() && 0 < b.maxBytes
    requires s.pos + b.maxBytes <= |s.data|
    requires forall j :: s.pos <= j < s.pos + b.maxBytes ==> s.data[j] != RecordDelim
    ensures var o := ReadRecord(b, s);
            && o.result == -1
            && o.buf.length == b.maxBytes + 1
            && o.buf.Content() == s.data[s.pos..s.pos + b.maxBytes] + [FieldDelim]
            && o.buf.At(b.maxBytes) == FieldDelim
  {
    ReadStepsFull(b.maxBytes, s);
    var o := ReadRecord(b, s);
    assert o.buf.mem[b.maxBytes] == o.buf.Content()[b.maxBytes];
  }

  /** The loop entered just after a successful `get` of `data[i]`, with
      `acc` stored: when the next '\n' is `m` bytes on and they fit, it
      stores exactly those bytes and leaves the stream just past the '\n'. */
  lemma {:induction false} ReadLoopToDelim(max: int, acc: seq<Byte>, data: seq<Byte>, i: nat, m: nat)
    requires i + m < |data| && |acc| + m < max
    requires data[i + m] == RecordDelim
    requires forall j :: i <= j < i + m ==> data[j] != RecordDelim
    ensures ReadLoop(max, acc, InStream(data, i + 1, false, false), false, false, data[i])
            == (acc + data[i..i + m], InStream(data, i + m + 1, false, false), false)
    decreases m
  {
    if m > 0 {
      ReadLoopToDelim(max, acc + [data[i]], data, i + 1, m - 1);
      assert acc + [data[i]] + data[i + 1..i + m] == acc + data[i..i + m];
    } else {
      assert acc + data[i..i] == acc;
    }
  }

  /** As above when no '\n' follows and the rest of the data fits: it stores
      all of it and stops on the end of the data, without an error. */
  lemma {:induction false} ReadLoopToEnd(max: int, acc: seq<Byte>, data: seq<Byte>, i: nat)
    requires i < |data| && |acc| + |data| - i < max
    requires forall j :: i <= j < |data| ==> data[j] != RecordDelim
    ensures ReadLoop(max, acc, InStream(data, i + 1, false, false), false, false, data[i])
            == (acc + data[i..], InStream(data, |data|, true, true), false)
    decreases |data| - i
  {
    if i + 1 < |data| {
      ReadLoopToEnd(max, acc + [data[i]], data, i + 1);
      assert acc + [data[i]] + data[i + 1..] == acc + data[i..];
    } else {
      assert data[i..] == [data[i]];
    }
  }

  /** As above when the `k` bytes that fill the buffer hold no '\n': it
      stores them, consumes one more byte if there is one, and reports an
      error. */
  lemma {:induction false} ReadLoopFull(max: int, acc: seq<Byte>, data: seq<Byte>, i: nat, k: nat)
    requires 1 <= k && |acc| + k == max && i + k <= |data|
    requires forall j :: i <= j < i + k ==> data[j] != RecordDelim
    ensures var out := ReadLoop(max, acc, InStream(data, i + 1, false, false), false, false, data[i]);
            && out.0 == acc + data[i..i + k] && out.2
            && out.1.pos == (if i + k < |data| then i + k + 1 else |data|)
    decreases k
  {
    if k > 1 {
      ReadLoopFull(max, acc + [data[i]], data, i + 1, k - 1);
      assert acc + [data[i]] + data[i + 1..i + k] == acc + data[i..i + k];
    } else {
      assert data[i..i + 1] == [data[i]];
    }
  }

  /** The step-for-step `read` agrees with the reference reading on every
      stream state and capacity. */
  lemma ReadStepsMatchSpec(maxBytes: int, s: InStream)
    requires s.Valid()
    ensures ReadSteps(maxBytes, s) == ReadSpec(maxBytes, s)
  {
    if !s.Good() || maxBytes <= 0 {
      ReadStepsRefused(maxBytes, s);
    } else if s.pos == |s.data| {
      ReadStepsAtEnd(maxBytes, s);
    } else {
      ReadStepsScan(maxBytes, s);
    }
  }

  lemma ReadStepsRefused(maxBytes: int, s: InStream)
    requires s.Valid() && (!s.Good() || maxBytes <= 0)
    ensures ReadSteps(maxBytes, s) == ReadSpec(maxBytes, s)
  {
    var got := Get(s);
    assert ReadLoop(maxBytes, [], got.0, true, s.eof, Narrow(got.1)) == ([], got.0, true);
  }

  /** A good stream with data left: the three ways the scan can end. */
  lemma ReadStepsScan(maxBytes: int, s: InStream)
    requires s.Valid() && s.Good() && 0 < maxBytes && s.pos < |s.data|
    ensures ReadSteps(maxBytes, s) == ReadSpec(maxBytes, s)
  {
    var n := Find(s.data[s.pos..], RecordDelim);
    NoDelimBefore(s.data, s.pos, n);
    ReadSpecCases(maxBytes, s);
    if n < maxBytes && s.pos + n < |s.data| {
      ReadStepsToDelim(maxBytes, s, n);
    } else if n < maxBytes {
      assert s.pos + n == |s.data|;
      ReadStepsToEnd(maxBytes, s);
    } else {
      assert s.pos + maxBytes <= |s.data|;
      ReadStepsFull(maxBytes, s);
    }
  }

  /** `Find` over a suffix, restated on the indices of the whole sequence. */
  lemma NoDelimBefore(data: seq<Byte>, p: nat, n: nat)
    requires p <= |data| && n == Find(data[p..], RecordDelim)
    ensures p + n <= |data|
    ensures forall j :: p <= j < p + n ==> data[j] != RecordDelim
    ensures p + n < |data| ==> data[p + n] == RecordDelim
    ensures RecordDelim !in data[p..p + n]
  {
    var rest := data[p..];
    forall j | p <= j < p + n ensures data[j] != RecordDelim {
      assert data[j] == rest[j - p];
    }
    if p + n < |data| {
      assert data[p + n] == rest[n];
    }
  }

  /** The reference reading of a good stream with data left, on the
      indices of the whole data. */
  lemma ReadSpecCases(maxBytes: int, s: InStream)
    requires s.Valid() && s.Good() && 0 < maxBytes && s.pos < |s.data|
    ensures var n := Find(s.data[s.pos..], RecordDelim);
            && (n < maxBytes && s.pos + n < |s.data| ==>
                  ReadSpec(maxBytes, s) == (s.data[s.pos..s.pos + n], s.(pos := s.pos + n + 1), s.pos))
            && (n < maxBytes && s.pos + n == |s.data| ==>
                  ReadSpec(maxBytes, s) == (s.data[s.pos..], s.(pos := |s.data|, eof := true, fail := true), s.pos))
            && (n >= maxBytes ==>
                  var used := if s.pos + maxBytes < |s.data| then maxBytes + 1 else |s.data| - s.pos;
                  ReadSpec(maxBytes, s) == (s.data[s.pos..s.pos + maxBytes], ClearFlags(s.(pos := s.pos + used)), -1))
  {
    var n := Find(s.data[s.pos..], RecordDelim);
    assert s.data[s.pos..][..n] == s.data[s.pos..s.pos + n];
    if n >= maxBytes {
      assert s.data[s.pos..][..maxBytes] == s.data[s.pos..s.pos + maxBytes];
    }
  }

  lemma ReadStepsToDelim(maxBytes: int, s: InStream, n: nat)
    requires s.Valid() && s.Good() && s.pos + n < |s.data| && n < maxBytes
    requires s.data[s.pos + n] == RecordDelim
    requires forall j :: s.pos <= j < s.pos + n ==> s.data[j] != RecordDelim
    ensures ReadSteps(maxBytes, s) == (s.data[s.pos..s.pos + n], s.(pos := s.pos + n + 1), s.pos)
  {
    var got := Get(s);
    assert got.0 == InStream(s.data, s.pos + 1, false, false);
    assert Narrow(got.1) == s.data[s.pos];
    ReadLoopToDelim(maxBytes, [], s.data, s.pos, n);
    var out := ReadLoop(maxBytes, [], got.0, false, false, s.data[s.pos]);
    assert out.0 == s.data[s.pos..s.pos + n] by {
      assert [] + s.data[s.pos..s.pos + n] == s.data[s.pos..s.pos + n];
    }
    assert ReadSteps(maxBytes, s) == (out.0, out.1, s.pos);
  }

  lemma ReadStepsToEnd(maxBytes: int, s: InStream)
    requires s.Valid() && s.Good() && s.pos < |s.data| && |s.data| - s.pos < maxBytes
    requires forall j :: s.pos <= j < |s.data| ==> s.data[j] != RecordDelim
    ensures ReadSteps(maxBytes, s) == (s.data[s.pos..], s.(pos := |s.data|, eof := true, fail := true), s.pos)
  {
    var got := Get(s);
    assert got.0 == InStream(s.data, s.pos + 1, false, false);
    assert Narrow(got.1) == s.data[s.pos];
    ReadLoopToEnd(maxBytes, [], s.data, s.pos);
    var out := ReadLoop(maxBytes, [], got.0, false, false, s.data[s.pos]);
    assert out.0 == s.data[s.pos..] by {
      assert [] + s.data[s.pos..] == s.data[s.pos..];
    }
    assert ReadSteps(maxBytes, s) == (out.0, out.1, s.pos);
  }

  lemma ReadStepsFull(maxBytes: int, s: InStream)
    requires s.Valid() && s.Good() && 0 < maxBytes && s.pos + maxBytes <= |s.data|
    requires forall j :: s.pos <= j < s.pos + maxBytes ==> s.data[j] != RecordDelim
    ensures var used := if s.pos + maxBytes < |s.data| then maxBytes + 1 else |s.data| - s.pos;
            ReadSteps(maxBytes, s) == (s.data[s.pos..s.pos + maxBytes], ClearFlags(s.(pos := s.pos + used)), -1)
  {
    var got := Get(s);
    assert got.0 == InStream(s.data, s.pos + 1, false, false);
    assert Narrow(got.1) == s.data[s.pos];
    ReadLoopFull(maxBytes, [], s.data, s.pos, maxBytes);
    var out := ReadLoop(maxBytes, [], got.0, false, false, s.data[s.pos]);
    assert out.0 == s.data[s.pos..s.pos + maxBytes] by {
      assert [] + s.data[s.pos..s.pos + maxBytes] == s.data[s.pos..s.pos + maxBytes];
    }
    assert ReadSteps(maxBytes, s) == (out.0, ClearFlags(out.1), -1);
    var used := if s.pos + maxBytes < |s.data| then maxBytes + 1 else |s.data| - s.pos;
    assert out.1.pos == s.pos + used && out.1.data == s.data;
    assert ClearFlags(out.1) == ClearFlags(s.(pos := s.pos + used));
  }

  /** A good stream with no data left: the failed first `get` yields the
      EOF char, which the loop stores before the error stops it. */
  lemma ReadStepsAtEnd(maxBytes: int, s: InStream)
    requires s.Valid() && s.Good() && maxBytes > 0 && s.pos == |s.data|
    ensures ReadSteps(maxBytes, s) == ([EofChar], ClearFlags(s), -1)
  {
    var f1 := s.(eof := true, fail := true);
    assert Get(f1) == (f1, -1);
    assert ReadLoop(maxBytes, [EofChar], f1, true, true, EofChar) == ([EofChar], f1, true);
    assert [] + [EofChar] == [EofChar];
  }

  /** What a delimited `read` achieves: it succeeds exactly when the stream
      is good, data remains and fewer than `maxBytes` bytes precede the next
      '\n' (or the end); the content is then those bytes and a ',', the
      result is the starting position and the stream is past the '\n'. A
      failed read always leaves the stream's flags cleared. */
  lemma ReadRecordOutcome(b: Buffer, s: InStream)
    requires b.Valid() && s.Valid()
    ensures var o := ReadRecord(b, s);
            var n := Find(s.data[s.pos..], RecordDelim);
            && (o.result != -1 <==> s.Good() && 0 < b.maxBytes && n < b.maxBytes && s.pos < |s.data|)
            && (o.result == -1 ==> !o.stream.eof && !o.stream.fail)
            && (o.result != -1 ==>
                  && o.result == s.pos
                  && o.buf.Content() == s.data[s.pos..s.pos + n] + [FieldDelim]
                  && RecordDelim !in s.data[s.pos..s.pos + n]
                  && o.stream.pos == (if s.pos + n < |s.data| then s.pos + n + 1 else |s.data|))
  {
    ReadStepsMatchSpec(b.maxBytes, s);
    ReadSpecOutcome(b.maxBytes, s);
  }

  /** The reference read's outcome, case by case. */
  lemma ReadSpecOutcome(maxBytes: int, s: InStream)
    requires s.Valid()
    ensures var (stored, file, result) := ReadSpec(maxBytes, s);
            var n := Find(s.data[s.pos..], RecordDelim);
            && (result != -1 <==> s.Good() && 0 < maxBytes && n < maxBytes && s.pos < |s.data|)
            && (result == -1 ==> !file.eof && !file.fail)
            && (result != -1 ==>
                  && result == s.pos
                  && stored == s.data[s.pos..s.pos + n]
                  && RecordDelim !in s.data[s.pos..s.pos + n]
                  && file.pos == (if s.pos + n < |s.data| then s.pos + n + 1 else |s.data|))
  {
    if s.Good() && 0 < maxBytes && s.pos < |s.data| {
      var n := Find(s.data[s.pos..], RecordDelim);
      NoDelimBefore(s.data, s.pos, n);
      ReadSpecCases(maxBytes, s);
      if n < maxBytes && s.pos + n == |s.data| {
        assert s.data[s.pos..] == s.data[s.pos..s.pos + n];
      }
    }
  }

  /** `write(file)`: the content and one '\n' at the current position;
      returns that position, or -1 if the sink was failed before or after. */
  function WriteRecord(b: Buffer, out: OutStream): (r: (OutStream, int))
    requires b.Valid() && out.Valid()
    ensures r.0.Valid() && r.0.limit == out.limit && |out.data| <= |r.0.data|
    ensures r.1 != -1 <==> !out.fail && out.pos + b.length + 1 <= out.limit
    ensures r.1 != -1 ==>
              && r.1 == out.pos && r.0.pos == out.pos + b.length + 1
              && r.0.data == Overwrite(out.data, out.pos, b.Content() + [RecordDelim])
  {
    var result := if out.fail then -1 else Tellp(out);
    var o1 := Write(out, b.Content());
    var o2 := Write(o1, [RecordDelim]);
    OverwriteConcat(out.data, out.pos, b.Content(), [RecordDelim]);
    (o2, if o2.fail then -1 else result)
  }

  /** `dRead(file, fileIndex)`: seek, insist on landing exactly there, read. */
  function DirectRead(b: Buffer, s: InStream, index: int): (o: ReadOutcome)
    requires b.Valid() && s.Valid()
    ensures index != -1 && !(0 <= index <= |s.data|) ==> o.result == -1 && o.buf == b
  {
    var s1 := Seekg(s, index);
    if Tellg(s1) != index then ReadOutcome(b, s1, -1) else ReadRecord(b, s1)
  }

  /** `dWrite(file, fileIndex)`: seek, insist on landing exactly there, write. */
  function DirectWrite(b: Buffer, out: OutStream, index: int): (r: (OutStream, int))
    requires b.Valid() && out.Valid()
    ensures r.1 != -1 ==> 0 <= index <= |out.data| && r.1 == index
    ensures r.1 != -1 ==> r.0.data == Overwrite(out.data, index, b.Content() + [RecordDelim])
    ensures !(0 <= index <= |out.data|) ==> r.1 == -1
    // once the seek lands, the write succeeds on a usable sink with room
    ensures r.1 != -1 <==> !out.fail && 0 <= index <= |out.data| && index + b.length + 1 <= out.limit
  {
    var o1 := Seekp(out, index);
    if Tellp(o1) != index then (o1, -1) else WriteRecord(b, o1)
  }

  /** A record written at position `p` is read back from `p` as its
      content followed by one more ',' (the one `read` appends), provided
      the content holds no '\n' and fits the reading buffer. */
  lemma WriteThenRead(b: Buffer, out: OutStream, r: Buffer)
    requires b.Valid() && out.Valid() && r.Valid()
    requires !out.fail && out.pos + b.length + 1 <= out.limit
    requires RecordDelim !in b.Content() && b.length < r.maxBytes
    ensures var (o, p) := WriteRecord(b, out);
            && p == out.pos
            && var rd := ReadRecord(r, Reopen(o, p));
               && rd.result == p
               && rd.buf.Content() == b.Content() + [FieldDelim]
               && rd.stream.pos == p + b.length + 1
  {
    var (o, p) := WriteRecord(b, out);
    var c := b.Content();
    assert o.data[p..p + |c| + 1] == c + [RecordDelim];
    assert o.data[p..p + |c|] == c by {
      assert o.data[p..p + |c|] == o.data[p..p + |c| + 1][..|c|];
    }
    assert o.data[p + |c|] == o.data[p..p + |c| + 1][|c|];
    ReadLineAt(r, Reopen(o, p), c);
  }

  /** A record stored by `dWrite` at `index` is read back by `dRead` at the
      same index as its content and one more ','. */
  lemma DirectWriteThenRead(b: Buffer, out: OutStream, r: Buffer, index: int)
    requires b.Valid() && out.Valid() && r.Valid() && !out.fail
    requires 0 <= index <= |out.data| && index + b.length + 1 <= out.limit
    requires RecordDelim !in b.Content() && b.length < r.maxBytes
    ensures var (o, p) := DirectWrite(b, out, index);
            && p == index
            && var rd := DirectRead(r, Reopen(o, 0), index);
               && rd.result == index
               && rd.buf.Content() == b.Content() + [FieldDelim]
  {
    var o1 := Seekp(out, index);
    assert o1 == out.(pos := index);
    WriteThenRead(b, o1, r);
    var (o, p) := WriteRecord(b, o1);
    assert Seekg(Reopen(o, 0), index) == Reopen(o, index);
  }

  /** `read` at a position holding a line `c` shorter than the capacity. */
  lemma ReadLineAt(r: Buffer, s: InStream, c: seq<Byte>)
    requires r.Valid() && s.Valid() && s.Good()
    requires s.pos + |c| < |s.data| && s.data[s.pos..s.pos + |c|] == c && s.data[s.pos + |c|] == RecordDelim
    requires RecordDelim !in c && |c| < r.maxBytes
    ensures var rd := ReadRecord(r, s);
            && rd.result == s.pos
            && rd.buf.Content() == c + [FieldDelim]
            && rd.stream.pos == s.pos + |c| + 1
  {
    var tail := s.data[s.pos + |c| + 1..];
    assert s.data[s.pos..] == c + [RecordDelim] + tail;
    FindAfterPrefix(c, RecordDelim, tail);
    ReadRecordOutcome(r, s);
  }

  /** The header `writeHeader` stores is skipped exactly by `readHeader`:
      reading from the start of the sink stops just past it, whatever
      follows it. */
  lemma SkipWrittenHeader(out: OutStream)
    requires out.Valid() && !out.fail && |HeaderLiteral| <= out.limit
    ensures var (o, n) := WriteHeader(out);
            n == |HeaderLiteral| && SkipHeader(Reopen(o, 0)) == (Reopen(o, 0).(pos := n), n)
  {
    var (o, n) := WriteHeader(out);
    var tail := o.data[n..];
    assert o.data == HeaderLiteral + tail;
    HeaderScan(tail);
    SkipHeaderMatchesSpec(Reopen(o, 0));
  }

  /** The scan over the header line stops at its final '\n', whatever
      follows: the '\n's inside the two quoted names do not count. */
  lemma HeaderScan(tail: seq<Byte>)
    ensures QuoteScan(HeaderLiteral + tail, 0, false) == |HeaderLiteral|
  {
    HeaderZipScan();
    HeaderPlaceScan();
    HeaderRegionScan();
    HeaderCoordsScan();
    ScanPieces(HeaderZip, HeaderPlace, HeaderRegion, HeaderCoords, tail);
  }

  lemma HeaderZipScan()
    ensures QuoteScan(HeaderZip, 0, false) == -1 && !InQuotes(HeaderZip, 0, |HeaderZip|, false)
  {
    assert |HeaderZip| == 11;
  }

  lemma HeaderPlaceScan()
    ensures QuoteScan(HeaderPlace, 0, false) == -1 && !InQuotes(HeaderPlace, 0, |HeaderPlace|, false)
  {
    assert |HeaderPlace| == 13;
  }

  lemma HeaderRegionScan()
    ensures QuoteScan(HeaderRegion, 0, false) == -1 && !InQuotes(HeaderRegion, 0, |HeaderRegion|, false)
  {
    assert |HeaderRegion| == 13;
  }

  lemma HeaderCoordsScan()
    ensures QuoteScan(HeaderCoords, 0, false) == |HeaderCoords|
  {
  }

  /** Three stretches the scan passes through, each closing its quotes,
      followed by a fourth where it stops at the end. */
  lemma ScanPieces(p1: seq<Byte>, p2: seq<Byte>, p3: seq<Byte>, p4: seq<Byte>, tail: seq<Byte>)
    requires QuoteScan(p1, 0, false) == -1 && !InQuotes(p1, 0, |p1|, false)
    requires QuoteScan(p2, 0, false) == -1 && !InQuotes(p2, 0, |p2|, false)
    requires QuoteScan(p3, 0, false) == -1 && !InQuotes(p3, 0, |p3|, false)
    requires QuoteScan(p4, 0, false) == |p4|
    ensures QuoteScan(p1 + p2 + p3 + p4 + tail, 0, false) == |p1 + p2 + p3 + p4|
  {
    var r3 := p4 + tail;
    var r2 := p3 + r3;
    var r1 := p2 + r2;
    assert p1 + p2 + p3 + p4 + tail == p1 + r1;
    QuoteScanPrefix(p4, tail, 0, false);
    QuoteScanSkip(p3, r3, 0, false);
    QuoteScanShift(p3, r3, 0, false);
    QuoteScanSkip(p2, r2, 0, false);
    QuoteScanShift(p2, r2, 0, false);
    QuoteScanSkip(p1, r1, 0, false);
    QuoteScanShift(p1, r1, 0, false);
  }

  /** A stretch `a` the scan passes through without stopping only hands on
      its quote state to what follows. */
  lemma {:induction false} QuoteScanSkip(a: seq<Byte>, t: seq<Byte>, i: nat, q: bool)
    requires i <= |a| && QuoteScan(a, i, q) == -1
    ensures QuoteScan(a + t, i, q) == QuoteScan(a + t, |a|, InQuotes(a, i, |a|, q))
    decreases |a| - i
  {
    if i < |a| {
      assert (a + t)[i] == a[i];
      QuoteScanSkip(a, t, i + 1, if a[i] == Quote then !q else q);
    }
  }

  /** Scanning the part after `a` is scanning it on its own, offset by `|a|`. */
  lemma {:induction false} QuoteScanShift(a: seq<Byte>, t: seq<Byte>, j: nat, q: bool)
    requires j <= |t|
    ensures var r := QuoteScan(t, j, q);
            QuoteScan(a + t, |a| + j, q) == if r == -1 then -1 else |a| + r
    decreases |t| - j
  {
    if j < |t| {
      assert (a + t)[|a| + j] == t[j];
      QuoteScanShift(a, t, j + 1, if t[j] == Quote then !q else q);
    }
  }

  /** A scan that stops within `a` stops at the same place when more data follows. */
  lemma {:induction false} QuoteScanPrefix(a: seq<Byte>, t: seq<Byte>, i: nat, q: bool)
    requires i <= |a| && QuoteScan(a, i, q) != -1
    ensures QuoteScan(a + t, i, q) == QuoteScan(a, i, q)
    decreases |a| - i
  {
    assert (a + t)[i] == a[i];
    if !(a[i] == RecordDelim && !q) {
      QuoteScanPrefix(a, t, i + 1, if a[i] == Quote then !q else q);
    }
  }

  /** A byte that is neither ',' nor in any field is not in their layout. */
  lemma {:induction false} JoinFieldsAvoids(fs: seq<seq<Byte>>, x: Byte)
    requires x != FieldDelim && forall i :: 0 <= i < |fs| ==> x !in fs[i]
    ensures x !in JoinFields(fs)
    decreases |fs|
  {
    if |fs| > 0 {
      JoinFieldsCons(fs);
      assert forall i :: 0 <= i < |fs[1..]| ==> fs[1..][i] == fs[i + 1];
      JoinFieldsAvoids(fs[1..], x);
    }
  }

  /** A buffer holding the layout of `fs`, written as a record and read
      back from where it was written, unpacks to `fs`. */
  lemma WrittenFieldsReadBack(pb: Buffer, fs: seq<seq<Byte>>, out: OutStream, r: Buffer)
    requires pb.Valid() && out.Valid() && r.Valid()
    requires pb.Content() == JoinFields(fs)
    requires forall i :: 0 <= i < |fs| ==> FieldDelim !in fs[i] && RecordDelim !in fs[i]
    requires pb.length < r.maxBytes
    requires !out.fail && out.pos + pb.length + 1 <= out.limit
    ensures var (o, p) := WriteRecord(pb, out);
            var rd := ReadRecord(r, Reopen(o, out.pos));
            p == out.pos && rd.result == p && UnpackAll(rd.buf, |fs|).2 == fs
  {
    var j := JoinFields(fs);
    JoinFieldsAvoids(fs, RecordDelim);
    WriteThenRead(pb, out, r);
    var (o, p) := WriteRecord(pb, out);
    var rd := ReadRecord(r, Reopen(o, p));
    assert j <= rd.buf.Content();
    UnpackContentFields(rd.buf, fs);
  }

  /** Fields packed into a buffer, written as a record and read back from
      where it was written, are unpacked unchanged, in order. */
  lemma RecordFileRoundTrip(b: Buffer, fs: seq<seq<Byte>>, out: OutStream, r: Buffer)
    requires b.Valid() && out.Valid() && r.Valid()
    requires forall i :: 0 <= i < |fs| ==> PlainField(fs[i]) && RecordDelim !in fs[i]
    requires |JoinFields(fs)| <= b.maxBytes && |JoinFields(fs)| < r.maxBytes
    requires !out.fail && out.pos + |JoinFields(fs)| + 1 <= out.limit
    ensures var packed := PackAll(Clear(b), fs).0;
            var (o, p) := WriteRecord(packed, out);
            var rd := ReadRecord(r, Reopen(o, out.pos));
            p == out.pos && rd.result == p && UnpackAll(rd.buf, |fs|).2 == fs
  {
    PackUnpackRoundTrip(b, fs);
    WrittenFieldsReadBack(PackAll(Clear(b), fs).0, fs, out, r);
  }
}

=== FILE: header.dfy ===
/** `PostalCodeHeader`: the header record at the start of a length-indicated
    postal-code file. On disk it is a 2-byte size followed by that many bytes
    of '|'-terminated tokens: structure, version, record size, size format,
    index file name, index schema, record count, field count, one token per
    field description, and the primary key. The version, record size,
    record count and field count are stored as the two memory bytes of an
    `unsigned short`; the size format is stored in decimal. */
module PostalCodeHeader {
  import opened Bytes
  import opened Streams

  datatype Header = Header(
    structure: seq<Byte>,
    version: U16,
    recordSize: U16,
    sizeFormat: int,
    indexFilename: seq<Byte>,
    indexSchema: seq<Byte>,
    recordCount: U16,
    fieldCount: U16,
    fieldInfo: seq<seq<Byte>>,
    primaryKey: seq<Byte>)

  predicate PipeFree(s: seq<Byte>)
  {
    HeaderDelim !in s
  }

  /** What a header must satisfy for its written form to split back into the
      same tokens: no text holds a '|', no number has a '|' among its two
      bytes, the size format is a single digit, and the field count matches
      the field descriptions that are written. */
  predicate WellFormed(h: Header)
  {
    && PipeFree(h.structure) && PipeFree(h.indexFilename) && PipeFree(h.indexSchema)
    && PipeFree(h.primaryKey)
    && (forall i :: 0 <= i < |h.fieldInfo| ==> PipeFree(h.fieldInfo[i]))
    && PipeFree(EncodeU16(h.version)) && PipeFree(EncodeU16(h.recordSize))
    && PipeFree(EncodeU16(h.recordCount)) && PipeFree(EncodeU16(h.fieldCount))
    && 0 <= h.sizeFormat < 10
    && h.fieldCount == |h.fieldInfo|
  }

  /** The constructor's defaults: every text uses '/' where `clear` uses
      '|', so a default header can be written and read back. */
  function DefaultHeader(): (h: Header)
    ensures WellFormed(h)
    ensures h.fieldInfo == [] && h.recordCount == 0
  {
    SmallNumberPipeFree(0);
    Header("NULL/NULL", 0, 0, 0, "NULL", "key/NULL/0/pos/NULL/0", 0, 0, [], "NULL")
  }

  /** A number below 0x7C has no '|' among its stored bytes. */
  lemma SmallNumberPipeFree(v: U16)
    requires v < 0x7C
    ensures PipeFree(EncodeU16(v))
  {
    assert EncodeU16(v)[0] as int == v && EncodeU16(v)[1] as int == 0;
  }

  /** `clear()`: resets every attribute except the record count. The texts
      it installs contain '|', so a cleared header is not well formed. */
  function ClearHeader(h: Header): (r: Header)
    ensures r.recordCount == h.recordCount
    ensures r.fieldCount == 0 && r.fieldInfo == []
    ensures !PipeFree(r.structure) && !PipeFree(r.indexSchema)
    ensures !WellFormed(r)
  {
    var r := Header("NULL|NULL", 0, 0, 0, "NULL", "key|NULL|0|pos|NULL|0", h.recordCount, 0, [], "NULL");
    assert r.structure[4] == HeaderDelim && r.indexSchema[3] == HeaderDelim;
    r
  }

  /** A cleared header is the constructor's header except for the record
      count, which `clear` keeps, and the two texts where `clear` writes
      '|' in place of the constructor's '/'. */
  lemma ClearedIsDefault(h: Header)
    ensures ClearHeader(h) == DefaultHeader().(structure := "NULL|NULL",
                                                indexSchema := "key|NULL|0|pos|NULL|0",
                                                recordCount := h.recordCount)
    ensures ClearHeader(ClearHeader(h)) == ClearHeader(h)
  {
  }

  /** `readHeaderHelper(str)`: the text before the first '|' and what
      follows that '|'; without a '|', all of `str` and nothing. */
  function NextToken(str: seq<Byte>): (r: (seq<Byte>, seq<Byte>))
    ensures PipeFree(r.0)
    ensures HeaderDelim in str ==> str == r.0 + [HeaderDelim] + r.1
    ensures HeaderDelim !in str ==> r.0 == str && r.1 == []
  {
    var p := Find(str, HeaderDelim);
    if p < |str| then
      assert str == str[..p] + [HeaderDelim] + str[p + 1..];
      assert forall j :: 0 <= j < p ==> str[..p][j] == str[j];
      (str[..p], str[p + 1..])
    else
      (str, [])
  }

  /** `n` successive `readHeaderHelper` calls: the tokens and what remains. */
  function TakeTokens(str: seq<Byte>, n: nat): (r: (seq<seq<Byte>>, seq<Byte>))
    ensures |r.0| == n
    ensures forall i :: 0 <= i < n ==> PipeFree(r.0[i])
    decreases n
  {
    if n == 0 then ([], str)
    else
      var (t, rest) := NextToken(str);
      var (ts, rest2) := TakeTokens(rest, n - 1);
      ([t] + ts, rest2)
  }

  /** `(field[1] << 8) | field[0]` stored into an `unsigned short`; a byte
      past the token's end reads as NUL. */
  function TokenU16(tok: seq<Byte>): U16
  {
    DecodeU16Signed(ByteAt(tok, 0), ByteAt(tok, 1))
  }

  /** `int(field[0]) - 48`. */
  function TokenDigit(tok: seq<Byte>): int
  {
    Signed(ByteAt(tok, 0)) - '0' as int
  }

  /** `v` with its first `|xs|` entries replaced by `xs`, as far as `v`
      reaches: `fieldInfo[i] = ...` on a vector that is never resized. */
  function Overlay(v: seq<seq<Byte>>, xs: seq<seq<Byte>>): (r: seq<seq<Byte>>)
    ensures |r| == |v|
    ensures forall i :: 0 <= i < |v| && i < |xs| ==> r[i] == xs[i]
    ensures forall i :: |xs| <= i < |v| ==> r[i] == v[i]
  {
    seq(|v|, i requires 0 <= i < |v| => if i < |xs| then xs[i] else v[i])
  }

  /** The eight tokens `writeHeader` emits before the field descriptions. */
  function FixedTokens(h: Header): (ts: seq<seq<Byte>>)
    ensures |ts| == 8
  {
    [h.structure, EncodeU16(h.version), EncodeU16(h.recordSize), DecimalText(h.sizeFormat),
     h.indexFilename, h.indexSchema, EncodeU16(h.recordCount), EncodeU16(h.fieldCount)]
  }

  /** The tokens `writeHeader` emits, in order. */
  function HeaderTokens(h: Header): seq<seq<Byte>>
  {
    FixedTokens(h) + (h.fieldInfo + [h.primaryKey])
  }

  /** The header text `writeHeader` builds in its stringstream. */
  function Payload(h: Header): seq<Byte>
  {
    Terminated(HeaderTokens(h), HeaderDelim)
  }

  /** The attribute assignments `readHeader` makes from the header text,
      and the text left over. The field descriptions are read for the field
      count just decoded, into a vector that keeps its old size. */
  function ParseHeader(h: Header, text: seq<Byte>): (r: (Header, seq<Byte>))
    ensures |r.0.fieldInfo| == |h.fieldInfo|
  {
    var (fixed, rest) := TakeTokens(text, 8);
    var count := TokenU16(fixed[7]);
    var (infos, rest2) := TakeTokens(rest, count);
    var (key, rest3) := NextToken(rest2);
    (Header(fixed[0], TokenU16(fixed[1]), TokenU16(fixed[2]), TokenDigit(fixed[3]),
            fixed[4], fixed[5], TokenU16(fixed[6]), count, Overlay(h.fieldInfo, infos), key),
     rest3)
  }

  /** The loop `for (i = 0; i < n && file.get(ch); i++) text += ch`. */
  function GetChars(s: InStream, n: nat): (r: (InStream, seq<Byte>))
    requires s.Valid()
    ensures r.0.Valid() && r.0.data == s.data
    ensures n == 0 ==> r.0 == s && r.1 == []
    ensures r.0.Good() <==> s.Good() && s.pos + n <= |s.data|
    ensures r.0.Good() ==> r.0 == s.(pos := s.pos + n) && r.1 == s.data[s.pos..s.pos + n]
    decreases n
  {
    if n == 0 then (s, [])
    else
      var (s1, c) := Get(s);
      if c == -1 then (s1, [])
      else
        var (s2, rest) := GetChars(s1, n - 1);
        assert s2.Good() ==> [c as char] + rest == s.data[s.pos..s.pos + n];
        (s2, [c as char] + rest)
  }

  /** The character loop is one `read(text, n)` for any positive `n`. */
  lemma {:induction false} GetCharsIsRead(s: InStream, n: nat)
    requires s.Valid() && n > 0
    ensures GetChars(s, n) == ReadN(s, n)
    decreases n
  {
    if s.Good() && s.pos < |s.data| && n > 1 && |s.data| < s.pos + n {
      var s1 := s.(pos := s.pos + 1);
      GetCharsIsRead(s1, n - 1);
      assert s.data[s.pos..] == [s.data[s.pos]] + s.data[s.pos + 1..];
    }
  }

  /** `readHeader(file)`: the header with its attributes replaced from the
      file, the stream, and the header's length on disk or -1. Unless the
      stream is still good after the header text has been read the
      attributes stay as they were; once it is, they are all assigned even
      when the text does not end where the last token ends. */
  function ReadHeader(h: Header, s: InStream): (r: (Header, InStream, int))
    requires s.Valid()
    ensures r.1.Valid() && r.1.data == s.data
    ensures !r.1.Good() ==> r.0 == h && r.2 == -1
    ensures r.2 != -1 ==> r.1.Good() && r.2 >= 2 && r.1.pos == r.2
    ensures |r.0.fieldInfo| == |h.fieldInfo|
  {
    var s0 := Seekg(s, 0);
    var (s1, sizeBytes) := ReadN(s0, 2);
    var size := DecodeU16Signed(ByteAt(sizeBytes, 0), ByteAt(sizeBytes, 1));
    var (s2, text) := GetChars(s1, size);
    if !s2.Good() then (h, s2, -1)
    else
      var (h1, rest) := ParseHeader(h, text);
      (h1, s2, if rest == [] then size + 2 else -1)
  }

  /** The comparisons `validateHeader` makes, given the tokens it read: the
      record count is read but never compared, and a field description past
      the end of `fieldInfo` counts as a mismatch. */
  predicate TokensMatch(h: Header, fixed: seq<seq<Byte>>, infos: seq<seq<Byte>>, key: seq<Byte>)
    requires |fixed| == 8
  {
    && fixed[0] == h.structure
    && TokenU16(fixed[1]) == h.version
    && TokenU16(fixed[2]) == h.recordSize
    && (TokenDigit(fixed[3]) % 0x1_0000) == h.sizeFormat
    && fixed[4] == h.indexFilename
    && fixed[5] == h.indexSchema
    && TokenU16(fixed[7]) == h.fieldCount
    && |infos| <= |h.fieldInfo| && h.fieldInfo[..|infos|] == infos
    && key == h.primaryKey
  }

  /** The verdict `validateHeader` reaches on the header text: every
      comparison succeeds and the text ends with the primary key's token. */
  predicate TextMatches(h: Header, text: seq<Byte>)
  {
    var (fixed, rest) := TakeTokens(text, 8);
    var (infos, rest2) := TakeTokens(rest, h.fieldCount);
    var (key, rest3) := NextToken(rest2);
    rest3 == [] && TokensMatch(h, fixed, infos, key)
  }

  /** `validateHeader(file)`: the header's length on disk when the file's
      header record matches `h`, otherwise -1. Unlike `readHeader` it reads
      the size as a plain `unsigned short`. */
  function ValidateHeader(h: Header, s: InStream): (r: (InStream, int))
    requires s.Valid()
    ensures r.0.Valid() && r.0.data == s.data
    ensures r.1 != -1 ==> r.0.Good() && r.1 >= 2 && r.0.pos == r.1
  {
    var s0 := Seekg(s, 0);
    var (s1, sizeBytes) := ReadN(s0, 2);
    var size := DecodeU16(ByteAt(sizeBytes, 0), ByteAt(sizeBytes, 1));
    var (s2, text) := GetChars(s1, size);
    if !s2.Good() then (s2, -1)
    else (s2, if TextMatches(h, text) then size + 2 else -1)
  }

  /** `writeHeader(file)`: from the start of the file, the text's size as
      an `unsigned short` (so modulo 2^16) and then the whole text. The
      result is that size, not the record's length on disk. */
  function WriteHeader(h: Header, out: OutStream): (r: (OutStream, int))
    requires out.Valid()
    ensures r.0.Valid() && r.0.limit == out.limit
    ensures r.1 != -1 <==> !out.fail && 2 + |Payload(h)| <= out.limit
    ensures r.1 != -1 ==> r.1 == |Payload(h)| % 0x1_0000 && r.0.pos == 2 + |Payload(h)|
    ensures r.1 != -1 ==> r.0.data == Overwrite(out.data, 0, EncodeU16(r.1) + Payload(h))
  {
    var o0 := Seekp(out, 0);
    var text := Payload(h);
    var size := |text| % 0x1_0000;
    var o1 := Write(o0, EncodeU16(size));
    var o2 := Write(o1, text);
    if !o2.fail then
      OverwriteConcat(out.data, 0, EncodeU16(size), text);
      (o2, size)
    else
      (o2, -1)
  }

  /** `readHeaderHelper` undoes one token of `writeHeader`'s layout. */
  lemma NextTokenAfter(t: seq<Byte>, rest: seq<Byte>)
    requires PipeFree(t)
    ensures NextToken(t + [HeaderDelim] + rest) == (t, rest)
  {
    var str := t + [HeaderDelim] + rest;
    FindAfterPrefix(t, HeaderDelim, rest);
    assert str[..|t|] == t;
    assert str[|t| + 1..] == rest;
  }

  /** Taking `k` tokens from '|'-terminated pieces yields the first `k`
      pieces and leaves the rest of the layout. */
  lemma {:induction false} TakeTerminated(ts: seq<seq<Byte>>, rest: seq<Byte>, k: nat)
    requires k <= |ts|
    requires forall i :: 0 <= i < |ts| ==> PipeFree(ts[i])
    ensures TakeTokens(Terminated(ts, HeaderDelim) + rest, k)
            == (ts[..k], Terminated(ts[k..], HeaderDelim) + rest)
    decreases k
  {
    if k == 0 {
      assert ts[0..] == ts;
    } else {
      var str := Terminated(ts, HeaderDelim) + rest;
      var tail := Terminated(ts[1..], HeaderDelim) + rest;
      NextTokenOfTerminated(ts, rest);
      TakeTerminated(ts[1..], rest, k - 1);
      TakeTokensStep(str, k);
      SplitAfterFirst(ts, k);
      var sub := TakeTokens(tail, k - 1);
      assert TakeTokens(str, k).0 == [ts[0]] + sub.0 == ts[..k];
      assert TakeTokens(str, k).1 == sub.1 == Terminated(ts[k..], HeaderDelim) + rest;
    }
  }

  /** Taking `k` tokens is taking the first and then `k - 1` more. */
  lemma TakeTokensStep(str: seq<Byte>, k: nat)
    requires 0 < k
    ensures TakeTokens(str, k).0 == [NextToken(str).0] + TakeTokens(NextToken(str).1, k - 1).0
    ensures TakeTokens(str, k).1 == TakeTokens(NextToken(str).1, k - 1).1
  {
  }

  /** The first token of '|'-terminated pieces is the first piece, and the
      pieces after it stay pipe-free. */
  lemma NextTokenOfTerminated(ts: seq<seq<Byte>>, rest: seq<Byte>)
    requires 0 < |ts|
    requires forall i :: 0 <= i < |ts| ==> PipeFree(ts[i])
    ensures NextToken(Terminated(ts, HeaderDelim) + rest) == (ts[0], Terminated(ts[1..], HeaderDelim) + rest)
    ensures forall i :: 0 <= i < |ts[1..]| ==> PipeFree(ts[1..][i])
  {
    var tail := Terminated(ts[1..], HeaderDelim) + rest;
    assert Terminated(ts, HeaderDelim) + rest == ts[0] + [HeaderDelim] + tail;
    NextTokenAfter(ts[0], tail);
    forall i | 0 <= i < |ts[1..]| ensures PipeFree(ts[1..][i]) {
      assert ts[1..][i] == ts[i + 1];
    }
  }

  /** Slicing past the first element, then at `k - 1`, is slicing at `k`. */
  lemma SplitAfterFirst<T>(ts: seq<T>, k: nat)
    requires 0 < k <= |ts|
    ensures [ts[0]] + ts[1..][..k - 1] == ts[..k]
    ensures ts[1..][k - 1..] == ts[k..]
  {
  }

  /** The numbers the signed-char decoding gets back unchanged. */
  predicate NumbersDecodeExactly(h: Header)
  {
    DecodesExactly(h.version) && DecodesExactly(h.recordSize)
    && DecodesExactly(h.recordCount) && DecodesExactly(h.fieldCount)
  }

  /** A single digit is read back from its decimal text. */
  lemma DigitTokenValue(d: int)
    requires 0 <= d < 10
    ensures TokenDigit(DecimalText(d)) == d
    ensures TokenDigit(DecimalText(d)) % 0x1_0000 == d
  {
  }

  /** The pieces of a '|'-terminated layout taken from its tail. */
  lemma AllPipeFree(ts: seq<seq<Byte>>, a: seq<seq<Byte>>, b: seq<seq<Byte>>)
    requires ts == a + b
    requires forall i :: 0 <= i < |a| ==> PipeFree(a[i])
    requires forall i :: 0 <= i < |b| ==> PipeFree(b[i])
    ensures forall i :: 0 <= i < |ts| ==> PipeFree(ts[i])
  {
    forall i | 0 <= i < |ts| ensures PipeFree(ts[i]) {
      if i < |a| { assert ts[i] == a[i]; } else { assert ts[i] == b[i - |a|]; }
    }
  }

  /** The first eight tokens of a written layout followed by `extra`. */
  lemma LayoutFixed(fixed: seq<seq<Byte>>, more: seq<seq<Byte>>, extra: seq<Byte>)
    requires |fixed| == 8
    requires forall i :: 0 <= i < 8 ==> PipeFree(fixed[i])
    requires forall i :: 0 <= i < |more| ==> PipeFree(more[i])
    ensures TakeTokens(Terminated(fixed + more, HeaderDelim) + extra, 8)
            == (fixed, Terminated(more, HeaderDelim) + extra)
  {
    var ts := fixed + more;
    AllPipeFree(ts, fixed, more);
    TakeTerminated(ts, extra, 8);
    assert ts[..8] == fixed && ts[8..] == more;
  }

  /** The field descriptions of a written layout, leaving the primary key
      and `extra`. */
  lemma LayoutInfos(infos: seq<seq<Byte>>, key: seq<Byte>, extra: seq<Byte>)
    requires forall i :: 0 <= i < |infos| ==> PipeFree(infos[i])
    requires PipeFree(key)
    ensures TakeTokens(Terminated(infos + [key], HeaderDelim) + extra, |infos|)
            == (infos, key + [HeaderDelim] + extra)
  {
    var more := infos + [key];
    AllPipeFree(more, infos, [key]);
    TakeTerminated(more, extra, |infos|);
    assert more[..|infos|] == infos;
    assert more[|infos|..] == [key];
    TerminatedSingle(key);
  }

  lemma TerminatedSingle(key: seq<Byte>)
    ensures Terminated([key], HeaderDelim) == key + [HeaderDelim]
  {
    assert [key][1..] == [];
    assert key + [HeaderDelim] + [] == key + [HeaderDelim];
  }

  /** The parse of a written layout followed by `extra`, attribute by
      attribute: `extra` is what is left over. */
  lemma ParseLayout(h0: Header, fixed: seq<seq<Byte>>, infos: seq<seq<Byte>>, key: seq<Byte>, extra: seq<Byte>)
    requires |fixed| == 8
    requires forall i :: 0 <= i < 8 ==> PipeFree(fixed[i])
    requires forall i :: 0 <= i < |infos| ==> PipeFree(infos[i])
    requires PipeFree(key)
    requires TokenU16(fixed[7]) == |infos|
    ensures ParseHeader(h0, Terminated(fixed + (infos + [key]), HeaderDelim) + extra)
            == (Header(fixed[0], TokenU16(fixed[1]), TokenU16(fixed[2]), TokenDigit(fixed[3]),
                       fixed[4], fixed[5], TokenU16(fixed[6]), TokenU16(fixed[7]),
                       Overlay(h0.fieldInfo, infos), key), extra)
  {
    AllPipeFree(infos + [key], infos, [key]);
    LayoutFixed(fixed, infos + [key], extra);
    LayoutInfos(infos, key, extra);
    NextTokenAfter(key, extra);
  }

  /** No token of a well-formed header's eight leading tokens holds a '|'. */
  lemma FixedTokensPipeFree(h: Header)
    requires WellFormed(h)
    ensures forall i :: 0 <= i < 8 ==> PipeFree(FixedTokens(h)[i])
  {
    assert PipeFree(DecimalText(h.sizeFormat));
  }

  /** What the parse decodes from the eight leading tokens of a header
      whose numbers survive the signed-char decoding. */
  lemma FixedTokensValues(h: Header)
    requires WellFormed(h)
    ensures FixedTokens(h)[0] == h.structure
    ensures DecodesExactly(h.version) ==> TokenU16(FixedTokens(h)[1]) == h.version
    ensures DecodesExactly(h.recordSize) ==> TokenU16(FixedTokens(h)[2]) == h.recordSize
    ensures TokenDigit(FixedTokens(h)[3]) == h.sizeFormat
    ensures TokenDigit(FixedTokens(h)[3]) % 0x1_0000 == h.sizeFormat
    ensures FixedTokens(h)[4] == h.indexFilename && FixedTokens(h)[5] == h.indexSchema
    ensures DecodesExactly(h.recordCount) ==> TokenU16(FixedTokens(h)[6]) == h.recordCount
    ensures DecodesExactly(h.fieldCount) ==> TokenU16(FixedTokens(h)[7]) == h.fieldCount
  {
    SignedDecodeExactness(h.version);
    SignedDecodeExactness(h.recordSize);
    SignedDecodeExactness(h.recordCount);
    SignedDecodeExactness(h.fieldCount);
    DigitTokenValue(h.sizeFormat);
  }

  /** `readHeader`'s parsing recovers every attribute of a well-formed
      header from the text `writeHeader` builds, except that the field
      descriptions land only in the slots the receiving vector already has. */
  lemma ParseWritten(h0: Header, h: Header)
    requires WellFormed(h) && NumbersDecodeExactly(h)
    ensures ParseHeader(h0, Payload(h)) == (h.(fieldInfo := Overlay(h0.fieldInfo, h.fieldInfo)), [])
  {
    var fixed := FixedTokens(h);
    FixedTokensPipeFree(h);
    FixedTokensValues(h);
    ParseLayout(h0, fixed, h.fieldInfo, h.primaryKey, []);
    assert Payload(h) + [] == Payload(h);
  }

  /** `readHeader` on a file whose size covers a written header text and
      some bytes after it: it reports failure, yet has already assigned
      every attribute from the tokens it parsed. */
  lemma ReadHeaderTrailingText(h0: Header, h: Header, extra: seq<Byte>, o: OutStream)
    requires WellFormed(h) && NumbersDecodeExactly(h) && extra != []
    requires var text := Payload(h) + extra;
             && 2 + |text| <= |o.data| && |text| < 0x1_0000 && DecodesExactly(|text|)
             && o.data[..2] == EncodeU16(|text|) && o.data[2..2 + |text|] == text
    ensures ReadHeader(h0, Reopen(o, 0)).2 == -1
    ensures ReadHeader(h0, Reopen(o, 0)).0 == h.(fieldInfo := Overlay(h0.fieldInfo, h.fieldInfo))
  {
    FixedTokensPipeFree(h);
    FixedTokensValues(h);
    ParseLayout(h0, FixedTokens(h), h.fieldInfo, h.primaryKey, extra);
    ReadHeaderOnRecord(h0, o, Payload(h) + extra);
  }

  /** A text shorter than 2^16 bytes has its own length as its stored size. */
  lemma SizeFits(n: nat)
    requires n < 0x1_0000
    ensures n % 0x1_0000 == n
  {
  }

  /** Where `writeHeader` puts the size and the text. */
  lemma WrittenHeaderBytes(h: Header, out: OutStream)
    requires out.Valid() && !out.fail && 2 + |Payload(h)| <= out.limit
    ensures var (o, n) := WriteHeader(h, out);
            2 + |Payload(h)| <= |o.data|
            && o.data[..2] == EncodeU16(n) && o.data[2..2 + |Payload(h)|] == Payload(h)
  {
    var (o, n) := WriteHeader(h, out);
    var w := EncodeU16(n) + Payload(h);
    assert o.data[0..|w|] == w;
    assert o.data[..2] == w[..2];
    assert o.data[2..2 + |Payload(h)|] == w[2..];
  }

  /** A fresh reader of bytes laid out as a 2-byte size and a text gets
      both back, with the stream just past them. */
  lemma ReadBackRecord(o: OutStream, pre: seq<Byte>, text: seq<Byte>)
    requires |pre| == 2 && 2 + |text| <= |o.data|
    requires o.data[..2] == pre && o.data[2..2 + |text|] == text
    ensures ReadN(Seekg(Reopen(o, 0), 0), 2) == (Reopen(o, 0).(pos := 2), pre)
    ensures GetChars(Reopen(o, 0).(pos := 2), |text|) == (Reopen(o, 0).(pos := 2 + |text|), text)
  {
  }

  /** `readHeader` on a file that starts with a size and a text of that
      size, when the size survives the signed-char decoding. */
  lemma ReadHeaderOnRecord(h0: Header, o: OutStream, text: seq<Byte>)
    requires 2 + |text| <= |o.data| && |text| < 0x1_0000 && DecodesExactly(|text|)
    requires o.data[..2] == EncodeU16(|text|) && o.data[2..2 + |text|] == text
    ensures ReadHeader(h0, Reopen(o, 0))
            == (ParseHeader(h0, text).0, Reopen(o, 0).(pos := 2 + |text|),
                if ParseHeader(h0, text).1 == [] then |text| + 2 else -1)
  {
    var e := EncodeU16(|text|);
    ReadBackRecord(o, e, text);
    SignedDecodeExactness(|text|);
    assert DecodeU16Signed(ByteAt(e, 0), ByteAt(e, 1)) == |text|;
  }

  /** `validateHeader` on a file that starts with a size and a text of that size. */
  lemma ValidateHeaderOnRecord(v: Header, o: OutStream, text: seq<Byte>)
    requires 2 + |text| <= |o.data| && |text| < 0x1_0000
    requires o.data[..2] == EncodeU16(|text|) && o.data[2..2 + |text|] == text
    ensures ValidateHeader(v, Reopen(o, 0))
            == (Reopen(o, 0).(pos := 2 + |text|), if TextMatches(v, text) then |text| + 2 else -1)
  {
    var e := EncodeU16(|text|);
    ReadBackRecord(o, e, text);
    EncodeU16Injective(DecodeU16(e[0], e[1]), |text|);
    assert DecodeU16(ByteAt(e, 0), ByteAt(e, 1)) == |text|;
  }

  /** `readHeader` on a file `writeHeader` has just written recovers the
      header, provided the header is well formed and every number,
      including the text's size, survives the signed-char decoding; the
      field descriptions land only in slots the receiving header has. */
  lemma ReadWrittenHeader(h0: Header, h: Header, out: OutStream)
    requires out.Valid() && !out.fail && 2 + |Payload(h)| <= out.limit
    requires WellFormed(h) && NumbersDecodeExactly(h)
    requires |Payload(h)| < 0x1_0000 && DecodesExactly(|Payload(h)|)
    ensures var (o, n) := WriteHeader(h, out);
            && n == |Payload(h)|
            && ReadHeader(h0, Reopen(o, 0))
               == (h.(fieldInfo := Overlay(h0.fieldInfo, h.fieldInfo)), Reopen(o, 0).(pos := n + 2), n + 2)
  {
    var (o, n) := WriteHeader(h, out);
    SizeFits(|Payload(h)|);
    WrittenHeaderBytes(h, out);
    ReadHeaderOnRecord(h0, o, Payload(h));
    ParseWritten(h0, h);
  }

  /** Reading into a header whose vector already has a slot per field
      description gives back exactly the header that was written. */
  lemma ReadWrittenHeaderExact(h0: Header, h: Header, out: OutStream)
    requires out.Valid() && !out.fail && 2 + |Payload(h)| <= out.limit
    requires WellFormed(h) && NumbersDecodeExactly(h)
    requires |Payload(h)| < 0x1_0000 && DecodesExactly(|Payload(h)|)
    requires |h0.fieldInfo| == |h.fieldInfo|
    ensures ReadHeader(h0, Reopen(WriteHeader(h, out).0, 0)).0 == h
  {
    ReadWrittenHeader(h0, h, out);
    OverlayAll(h0.fieldInfo, h.fieldInfo);
  }

  /** Overlaying a vector of the same size replaces all of it. */
  lemma OverlayAll(v: seq<seq<Byte>>, xs: seq<seq<Byte>>)
    requires |v| == |xs|
    ensures Overlay(v, xs) == xs
  {
  }

  /** The attributes `validateHeader` compares, with the field descriptions
      `h` writes found at the front of `v`'s. The record count is not among
      them. */
  predicate Agrees(v: Header, h: Header)
  {
    && v.structure == h.structure
    && v.version == h.version
    && v.recordSize == h.recordSize
    && v.sizeFormat == h.sizeFormat
    && v.indexFilename == h.indexFilename
    && v.indexSchema == h.indexSchema
    && v.fieldCount == h.fieldCount
    && |h.fieldInfo| <= |v.fieldInfo| && v.fieldInfo[..|h.fieldInfo|] == h.fieldInfo
    && v.primaryKey == h.primaryKey
  }

  /** The token comparisons of `validateHeader` on a written text succeed
      exactly when the two headers agree. */
  lemma ValidateLayout(v: Header, h: Header)
    requires WellFormed(h)
    requires DecodesExactly(h.version) && DecodesExactly(h.recordSize) && DecodesExactly(h.fieldCount)
    ensures TextMatches(v, Payload(h)) == Agrees(v, h)
  {
    var fixed := FixedTokens(h);
    FixedTokensValues(h);
    PayloadTokens(h);
    var r1 := TakeTokens(Payload(h), 8);
    if v.fieldCount == h.fieldCount {
      var r2 := TakeTokens(r1.1, v.fieldCount);
      var r3 := NextToken(r2.1);
      assert r3 == (h.primaryKey, []);
      assert TokenDigit(fixed[3]) % 0x1_0000 == h.sizeFormat;
      assert TokensMatch(v, fixed, h.fieldInfo, h.primaryKey) == Agrees(v, h);
    } else {
      assert TokenU16(fixed[7]) != v.fieldCount;
    }
  }

  /** The successive splits `validateHeader` makes of a written text: the
      eight fixed tokens, the field descriptions, then the primary key with
      nothing after it. */
  lemma PayloadTokens(h: Header)
    requires WellFormed(h)
    ensures var more := h.fieldInfo + [h.primaryKey];
            && TakeTokens(Payload(h), 8) == (FixedTokens(h), Terminated(more, HeaderDelim))
            && TakeTokens(Terminated(more, HeaderDelim), |h.fieldInfo|) == (h.fieldInfo, h.primaryKey + [HeaderDelim])
            && NextToken(h.primaryKey + [HeaderDelim]) == (h.primaryKey, [])
  {
    PayloadFixed(h);
    PayloadInfos(h.fieldInfo, h.primaryKey);
    LayoutKey(h.primaryKey);
  }

  lemma PayloadFixed(h: Header)
    requires WellFormed(h)
    ensures TakeTokens(Payload(h), 8) == (FixedTokens(h), Terminated(h.fieldInfo + [h.primaryKey], HeaderDelim))
  {
    var more := h.fieldInfo + [h.primaryKey];
    FixedTokensPipeFree(h);
    AllPipeFree(more, h.fieldInfo, [h.primaryKey]);
    LayoutFixed(FixedTokens(h), more, []);
    assert Payload(h) + [] == Payload(h);
    assert Terminated(more, HeaderDelim) + [] == Terminated(more, HeaderDelim);
  }

  lemma PayloadInfos(infos: seq<seq<Byte>>, key: seq<Byte>)
    requires forall i :: 0 <= i < |infos| ==> PipeFree(infos[i])
    requires PipeFree(key)
    ensures TakeTokens(Terminated(infos + [key], HeaderDelim), |infos|) == (infos, key + [HeaderDelim])
  {
    LayoutInfos(infos, key, []);
    assert Terminated(infos + [key], HeaderDelim) + [] == Terminated(infos + [key], HeaderDelim);
    assert key + [HeaderDelim] + [] == key + [HeaderDelim];
  }

  /** The primary key is the last token. */
  lemma LayoutKey(key: seq<Byte>)
    requires PipeFree(key)
    ensures NextToken(key + [HeaderDelim]) == (key, [])
  {
    NextTokenAfter(key, []);
    assert key + [HeaderDelim] + [] == key + [HeaderDelim];
  }

  /** `validateHeader` on a file `writeHeader` has just written accepts
      exactly the headers that agree with the written one, whatever their
      record count; it reads the size correctly, so only the size's range
      matters, not its bytes. */
  lemma ValidateWrittenHeader(v: Header, h: Header, out: OutStream)
    requires out.Valid() && !out.fail && 2 + |Payload(h)| <= out.limit
    requires WellFormed(h)
    requires DecodesExactly(h.version) && DecodesExactly(h.recordSize) && DecodesExactly(h.fieldCount)
    requires |Payload(h)| < 0x1_0000
    ensures var (o, n) := WriteHeader(h, out);
            ValidateHeader(v, Reopen(o, 0)).1 == if Agrees(v, h) then n + 2 else -1
  {
    var (o, n) := WriteHeader(h, out);
    SizeFits(|Payload(h)|);
    WrittenHeaderBytes(h, out);
    ValidateHeaderOnRecord(v, o, Payload(h));
    ValidateLayout(v, h);
  }

  /** A header validates against its own file whatever record count the
      file was written with. */
  lemma ValidateIgnoresRecordCount(h: Header, count: U16, out: OutStream)
    requires WellFormed(h) && PipeFree(EncodeU16(count))
    requires DecodesExactly(h.version) && DecodesExactly(h.recordSize) && DecodesExactly(h.fieldCount)
    requires out.Valid() && !out.fail && 2 + |Payload(h.(recordCount := count))| <= out.limit
    requires |Payload(h.(recordCount := count))| < 0x1_0000
    ensures var (o, n) := WriteHeader(h.(recordCount := count), out);
            ValidateHeader(h, Reopen(o, 0)).1 == n + 2
  {
    ValidateWrittenHeader(h, h.(recordCount := count), out);
    assert h.fieldInfo[..|h.fieldInfo|] == h.fieldInfo;
  }

  /** `readHeader` into a freshly constructed header reports success on a
      written header yet keeps no field description, because the
      constructor's vector is empty and is never resized. */
  lemma ReadIntoDefaultDropsFieldInfo(h: Header, out: OutStream)
    requires out.Valid() && !out.fail && 2 + |Payload(h)| <= out.limit
    requires WellFormed(h) && NumbersDecodeExactly(h)
    requires |Payload(h)| < 0x1_0000 && DecodesExactly(|Payload(h)|)
    ensures var (o, n) := WriteHeader(h, out);
            var (got, s, m) := ReadHeader(DefaultHeader(), Reopen(o, 0));
            m == n + 2 && got.fieldInfo == [] && got.fieldCount == h.fieldCount
  {
    ReadWrittenHeader(DefaultHeader(), h, out);
  }

  /** `readHeader` on a file too short for the size it decodes. */
  lemma ReadHeaderOnMisreadSize(h0: Header, o: OutStream, text: seq<Byte>)
    requires 2 + |text| <= |o.data| < 0xFF82 && |text| < 0x1_0000 && |text| % 0x100 >= 0x80
    requires o.data[..2] == EncodeU16(|text|)
    ensures ReadHeader(h0, Reopen(o, 0)).0 == h0 && ReadHeader(h0, Reopen(o, 0)).2 == -1
  {
    var e := EncodeU16(|text|);
    var s := Reopen(o, 0);
    assert ReadN(Seekg(s, 0), 2) == (s.(pos := 2), e);
    assert e[0] as int >= 0x80;
    var size := DecodeU16Signed(ByteAt(e, 0), ByteAt(e, 1));
    assert size >= 0xFF80;
    assert !GetChars(s.(pos := 2), size).0.Good();
  }

  /** A written header whose text length has a low byte of 0x80 or more
      is not read back by `readHeader`: it decodes the size as 0xFF00 plus
      that byte, runs out of data and keeps the attributes it had, while
      `validateHeader`, decoding the size correctly, accepts the header. */
  lemma ReadHeaderMisreadsSize(h0: Header, h: Header, out: OutStream)
    requires out.Valid() && !out.fail && 2 + |Payload(h)| <= out.limit
    requires WellFormed(h)
    requires DecodesExactly(h.version) && DecodesExactly(h.recordSize) && DecodesExactly(h.fieldCount)
    requires |Payload(h)| < 0xFF00 && |Payload(h)| % 0x100 >= 0x80
    requires |out.data| < 0xFF82
    ensures var (o, n) := WriteHeader(h, out);
            && ReadHeader(h0, Reopen(o, 0)).0 == h0
            && ReadHeader(h0, Reopen(o, 0)).2 == -1
            && ValidateHeader(h, Reopen(o, 0)).1 == n + 2
  {
    var (o, n) := WriteHeader(h, out);
    SizeFits(|Payload(h)|);
    WrittenHeaderBytes(h, out);
    assert |o.data| < 0xFF82;
    ReadHeaderOnMisreadSize(h0, o, Payload(h));
    ValidateWrittenHeader(h, h, out);
    assert h.fieldInfo[..|h.fieldInfo|] == h.fieldInfo;
  }
}

=== FILE: length_buffer.dfy ===
/** `NewPostalCodeBuffer`: records framed by a 2-byte length instead of a
    line break, in a file that starts with a `PostalCodeHeader` record. The
    field-level operations (`pack`, `unpack`, `clear`) are the base
    buffer's; this class supplies its own `read`, `write`, `readHeader` and
    `writeHeader`, and a header describing its fixed six-field schema. */
module LengthFraming {
  import opened Bytes
  import opened Streams
  import opened RecordBuffer
  import opened PostalCodeHeader

  /** The base buffer and the header manager the class keeps beside it. */
  datatype LengthBuffer = LengthBuffer(buf: Buffer, header: Header)

  /** The capacity the base class is constructed with: its default argument. */
  const DefaultCapacity: int := 1000

  /** The field descriptions of the six postal-code fields. */
  const FieldSchemas: seq<seq<Byte>> :=
    ["zipCode/DELIM/,", "city/DELIM/,", "state/DELIM/,", "county/DELIM/,", "lat/DELIM/,", "lng/DELIM/,"]

  lemma SchemasPipeFree()
    ensures |FieldSchemas| == 6
    ensures forall i :: 0 <= i < |FieldSchemas| ==> PipeFree(FieldSchemas[i])
  {
    assert PipeFree(FieldSchemas[0]) && PipeFree(FieldSchemas[1]) && PipeFree(FieldSchemas[2]);
    assert PipeFree(FieldSchemas[3]) && PipeFree(FieldSchemas[4]) && PipeFree(FieldSchemas[5]);
  }

  /** `NewPostalCodeBuffer(mb)`: `mb` is never passed on, so the buffer
      always gets the default capacity; the header is the default header
      with the length-indicated schema installed. */
  function Create(mb: int): (r: LengthBuffer)
    ensures r.buf == NewBuffer(DefaultCapacity)
    ensures WellFormed(r.header) && NumbersDecodeExactly(r.header)
    ensures r.header.fieldCount == 6 && r.header.fieldInfo == FieldSchemas
    ensures r.header.structure == "LENGTH/DELIM" && r.header.primaryKey == "zipCode"
    ensures r.header.version == 1 && r.header.recordSize == 0 && r.header.sizeFormat == 1
    // the rest comes from the header manager's own constructor
    ensures r.header.recordCount == 0
            && r.header.indexFilename == DefaultHeader().indexFilename
            && r.header.indexSchema == DefaultHeader().indexSchema
  {
    var d := DefaultHeader();
    var h := d.(structure := "LENGTH/DELIM", version := 1, recordSize := 0, sizeFormat := 1,
                fieldCount := 6, fieldInfo := FieldSchemas, primaryKey := "zipCode");
    SmallNumberPipeFree(1);
    SmallNumberPipeFree(0);
    SmallNumberPipeFree(6);
    SchemasPipeFree();
    LengthBuffer(NewBuffer(DefaultCapacity), h)
  }

  /** `read(file)`: at end of file nothing happens. Otherwise the buffer is
      cleared, a 2-byte length is read through the signed-char decoding,
      and if the stream is good and the length fits the capacity that many
      bytes become the record; the result is the record's address. A
      record cut short leaves its bytes in storage but the buffer empty. */
  function LRead(lb: LengthBuffer, s: InStream): (r: (LengthBuffer, InStream, int))
    requires s.Valid()
    ensures r.1.Valid() && r.1.data == s.data
    ensures r.0.header == lb.header && r.0.buf.maxBytes == lb.buf.maxBytes
    ensures s.eof ==> r == (lb, s, -1)
    ensures r.2 != -1 ==> r.0.buf.Valid() && r.0.buf.nextByte == 0
    ensures r.2 != -1 ==> && r.2 == s.pos
                          && r.1.Good() && r.1.pos == s.pos + 2 + r.0.buf.length
                          && r.0.buf.Content() == s.data[s.pos + 2..r.1.pos]
                          && r.0.buf.length <= r.0.buf.maxBytes
    ensures !s.eof && r.2 == -1 ==> r.0.buf.Valid() && r.0.buf.Content() == [] && r.0.buf.nextByte == 0
    // no length to read: a failed stream or fewer than two bytes left
    ensures !s.Good() || |s.data| < s.pos + 2 ==> r.2 == -1
    // with a length read, the record is taken exactly when the decoded
    // length fits the capacity and the data, and it has that length
    ensures s.Good() && s.pos + 2 <= |s.data| ==>
              var d := DecodeU16Signed(s.data[s.pos], s.data[s.pos + 1]);
              && (r.2 != -1 <==> d <= lb.buf.maxBytes && s.pos + 2 + d <= |s.data|)
              && (r.2 != -1 ==> r.0.buf.length == d)
  {
    if s.eof then (lb, s, -1)
    else
      var recaddr := Tellg(s);
      var b := Clear(lb.buf);
      var (s1, sizeBytes) := ReadN(s, 2);
      var size := DecodeU16Signed(ByteAt(sizeBytes, 0), ByteAt(sizeBytes, 1));
      assert s1.Good() ==> sizeBytes == [s.data[s.pos], s.data[s.pos + 1]];
      if !s1.Good() || b.maxBytes < size then (lb.(buf := b), s1, -1)
      else
        var (s2, bytes) := ReadN(s1, size);
        if s2.Good() then (lb.(buf := Load(b, bytes)), s2, recaddr)
        else (lb.(buf := Clear(Load(b, bytes))), s2, -1)
  }

  /** `write(file)`: the length as an `unsigned short` (so modulo 2^16),
      then the `length` bytes of the record; the result is the address the
      record was written at. */
  function LWrite(lb: LengthBuffer, out: OutStream): (r: (OutStream, int))
    requires out.Valid() && lb.buf.Valid()
    ensures r.0.Valid() && r.0.limit == out.limit && |out.data| <= |r.0.data|
    ensures r.1 != -1 <==> !out.fail && out.pos + 2 + lb.buf.length <= out.limit
    ensures r.1 != -1 ==> && r.1 == out.pos && r.0.pos == out.pos + 2 + lb.buf.length
                          && r.0.data == Overwrite(out.data, out.pos,
                                                   EncodeU16(lb.buf.length % 0x1_0000) + lb.buf.Content())
  {
    var recaddr := Tellp(out);
    var size := lb.buf.length % 0x1_0000;
    var o1 := Write(out, EncodeU16(size));
    if o1.fail then (o1, -1)
    else
      var o2 := Write(o1, lb.buf.Content());
      if o2.fail then (o2, -1)
      else
        OverwriteConcat(out.data, out.pos, EncodeU16(size), lb.buf.Content());
        (o2, recaddr)
  }

  /** `writeHeader(file, recordCount, indexFilename, indexSchema)`: records
      the three values in the header manager, then writes the header. */
  function LWriteHeader(lb: LengthBuffer, out: OutStream, recordCount: U16,
                        indexFilename: seq<Byte>, indexSchema: seq<Byte>): (r: (LengthBuffer, OutStream, int))
    requires out.Valid()
    ensures r.0.buf == lb.buf
    ensures r.0.header == lb.header.(recordCount := recordCount, indexFilename := indexFilename,
                                     indexSchema := indexSchema)
    ensures (r.1, r.2) == WriteHeader(r.0.header, out)
  {
    var h := lb.header.(recordCount := recordCount, indexFilename := indexFilename, indexSchema := indexSchema);
    var (o, n) := WriteHeader(h, out);
    (lb.(header := h), o, n)
  }

  /** `readHeader(file, indexFilename, indexSchema)`: records the index
      file's name and schema in the header manager, then validates the
      file's header against it. */
  function LReadHeader(lb: LengthBuffer, s: InStream,
                       indexFilename: seq<Byte>, indexSchema: seq<Byte>): (r: (LengthBuffer, InStream, int))
    requires s.Valid()
    ensures r.0.buf == lb.buf
    ensures r.0.header == lb.header.(indexFilename := indexFilename, indexSchema := indexSchema)
    ensures (r.1, r.2) == ValidateHeader(r.0.header, s)
  {
    var h := lb.header.(indexFilename := indexFilename, indexSchema := indexSchema);
    var (s1, n) := ValidateHeader(h, s);
    (lb.(header := h), s1, n)
  }

  /** Where `write` puts the length and the record. */
  lemma WrittenRecordBytes(lb: LengthBuffer, out: OutStream)
    requires out.Valid() && !out.fail && lb.buf.Valid() && out.pos + 2 + lb.buf.length <= out.limit
    ensures var o := LWrite(lb, out).0;
            && out.pos + 2 + lb.buf.length <= |o.data|
            && o.data[out.pos..out.pos + 2] == EncodeU16(lb.buf.length % 0x1_0000)
            && o.data[out.pos + 2..out.pos + 2 + lb.buf.length] == lb.buf.Content()
  {
    var o := LWrite(lb, out).0;
    var w := EncodeU16(lb.buf.length % 0x1_0000) + lb.buf.Content();
    assert o.data[out.pos..out.pos + |w|] == w;
    assert o.data[out.pos..out.pos + 2] == w[..2];
    assert o.data[out.pos + 2..out.pos + |w|] == w[2..];
  }

  /** A record written by `write` is read back by `read` at the address
      `write` returned, into any buffer with room for it, provided its
      length survives the signed-char decoding. */
  lemma WriteThenReadRecord(lb: LengthBuffer, reader: LengthBuffer, out: OutStream)
    requires out.Valid() && !out.fail && lb.buf.Valid() && out.pos + 2 + lb.buf.length <= out.limit
    requires lb.buf.length < 0x1_0000 && DecodesExactly(lb.buf.length)
    requires lb.buf.length <= reader.buf.maxBytes
    ensures var (o, p) := LWrite(lb, out);
            var (rb, s, q) := LRead(reader, Reopen(o, out.pos));
            && p == out.pos && q == p
            && rb.buf.Content() == lb.buf.Content()
            && s.pos == out.pos + 2 + lb.buf.length
  {
    var (o, p) := LWrite(lb, out);
    WrittenRecordBytes(lb, out);
    assert lb.buf.length % 0x1_0000 == lb.buf.length;
    ReadStoredRecord(reader, o, out.pos, lb.buf.Content());
  }

  /** `read` at a position holding a length and that many bytes. */
  lemma ReadStoredRecord(reader: LengthBuffer, o: OutStream, p: nat, record: seq<Byte>)
    requires p + 2 + |record| <= |o.data|
    requires |record| < 0x1_0000 && DecodesExactly(|record|) && |record| <= reader.buf.maxBytes
    requires o.data[p..p + 2] == EncodeU16(|record|) && o.data[p + 2..p + 2 + |record|] == record
    ensures LRead(reader, Reopen(o, p))
            == (reader.(buf := Load(Clear(reader.buf), record)), Reopen(o, p).(pos := p + 2 + |record|), p)
  {
    var n := |record|;
    var e := EncodeU16(n);
    SignedDecodeExactness(n);
    var s := Reopen(o, p);
    assert ReadN(s, 2) == (s.(pos := p + 2), e);
    assert DecodeU16Signed(ByteAt(e, 0), ByteAt(e, 1)) == n;
    assert ReadN(s.(pos := p + 2), n) == (s.(pos := p + 2 + n), record);
  }

  /** A record whose length has a low byte of 0x80 or more is written but
      never read back by a buffer of capacity below 0xFF00: the length is
      decoded as 0xFF00 plus its low byte, which exceeds the capacity, so
      `read` fails and leaves the buffer empty. */
  lemma WriteThenReadRejectsLength(lb: LengthBuffer, reader: LengthBuffer, out: OutStream)
    requires out.Valid() && !out.fail && lb.buf.Valid() && out.pos + 2 + lb.buf.length <= out.limit
    requires lb.buf.length < 0x1_0000 && lb.buf.length % 0x100 >= 0x80
    requires reader.buf.maxBytes < 0xFF00
    ensures var (o, p) := LWrite(lb, out);
            var (rb, s, q) := LRead(reader, Reopen(o, out.pos));
            && p == out.pos && q == -1
            && rb.buf.Content() == []
  {
    var (o, p) := LWrite(lb, out);
    WrittenRecordBytes(lb, out);
    SizeFits(lb.buf.length);
    ReadRejectsLength(reader, o, out.pos, lb.buf.length);
  }

  /** `read` at a length whose low byte is 0x80 or more, into a buffer of
      capacity below 0xFF00. */
  lemma ReadRejectsLength(reader: LengthBuffer, o: OutStream, p: nat, n: nat)
    requires p + 2 <= |o.data| && n < 0x1_0000 && n % 0x100 >= 0x80
    requires reader.buf.maxBytes < 0xFF00
    requires o.data[p..p + 2] == EncodeU16(n)
    ensures LRead(reader, Reopen(o, p)).2 == -1
    ensures LRead(reader, Reopen(o, p)).0.buf.Content() == []
  {
    var e := EncodeU16(n);
    var s := Reopen(o, p);
    assert ReadN(s, 2) == (s.(pos := p + 2), e);
    assert e[0] as int >= 0x80;
    assert DecodeU16Signed(ByteAt(e, 0), ByteAt(e, 1)) >= 0xFF00;
  }

  /** A buffer created with any capacity argument rejects a record of 128
      bytes that it wrote itself. */
  lemma CreatedBufferRejects128(mb: int, fields: seq<Byte>, out: OutStream)
    requires |fields| == 128
    requires out.Valid() && !out.fail && out.pos + 130 <= out.limit
    ensures var lb := Create(mb).(buf := Load(Create(mb).buf, fields));
            var (o, p) := LWrite(lb, out);
            p == out.pos && LRead(Create(mb), Reopen(o, out.pos)).2 == -1
  {
    var lb := Create(mb).(buf := Load(Create(mb).buf, fields));
    WriteThenReadRejectsLength(lb, Create(mb), out);
  }

  /** A header written by `writeHeader` is accepted by `readHeader` of a
      buffer with the same schema exactly when the index file name and
      schema given to the two calls agree; the record count plays no part. */
  lemma HeaderRoundTrip(lb: LengthBuffer, reader: LengthBuffer, out: OutStream, recordCount: U16,
                        indexFilename: seq<Byte>, indexSchema: seq<Byte>,
                        expectedFilename: seq<Byte>, expectedSchema: seq<Byte>)
    requires reader.header == lb.header
    requires var h := lb.header.(recordCount := recordCount, indexFilename := indexFilename,
                                 indexSchema := indexSchema);
             && WellFormed(h)
             && DecodesExactly(h.version) && DecodesExactly(h.recordSize) && DecodesExactly(h.fieldCount)
             && out.Valid() && !out.fail && 2 + |Payload(h)| <= out.limit && |Payload(h)| < 0x1_0000
    ensures var (written, o, n) := LWriteHeader(lb, out, recordCount, indexFilename, indexSchema);
            LReadHeader(reader, Reopen(o, 0), expectedFilename, expectedSchema).2
            == if expectedFilename == indexFilename && expectedSchema == indexSchema then n + 2 else -1
  {
    var h := lb.header.(recordCount := recordCount, indexFilename := indexFilename, indexSchema := indexSchema);
    var v := reader.header.(indexFilename := expectedFilename, indexSchema := expectedSchema);
    ValidateWrittenHeader(v, h, out);
    assert h.fieldInfo[..|h.fieldInfo|] == h.fieldInfo;
    assert Agrees(v, h) <==> expectedFilename == indexFilename && expectedSchema == indexSchema;
  }

  /** Two buffers created with any capacity arguments share their header,
      so one reads back the header the other writes. */
  lemma CreatedHeaderRoundTrip(m1: int, m2: int, out: OutStream, recordCount: U16,
                               indexFilename: seq<Byte>, indexSchema: seq<Byte>)
    requires PipeFree(indexFilename) && PipeFree(indexSchema) && PipeFree(EncodeU16(recordCount))
    requires var h := Create(m1).header.(recordCount := recordCount, indexFilename := indexFilename,
                                         indexSchema := indexSchema);
             out.Valid() && !out.fail && 2 + |Payload(h)| <= out.limit && |Payload(h)| < 0x1_0000
    ensures var (written, o, n) := LWriteHeader(Create(m1), out, recordCount, indexFilename, indexSchema);
            LReadHeader(Create(m2), Reopen(o, 0), indexFilename, indexSchema).2 == n + 2
  {
    HeaderRoundTrip(Create(m1), Create(m2), out, recordCount, indexFilename, indexSchema,
                    indexFilename, indexSchema);
  }

  /** Fields packed into a buffer, written as a length-prefixed record and
      read back from where it was written, are unpacked unchanged, in
      order, when the record's length survives the signed-char decoding. */
  lemma LengthFileRoundTrip(lb: LengthBuffer, fs: seq<seq<Byte>>, out: OutStream, reader: LengthBuffer)
    requires lb.buf.Valid() && out.Valid() && !out.fail
    requires forall i :: 0 <= i < |fs| ==> PlainField(fs[i])
    requires |JoinFields(fs)| <= lb.buf.maxBytes && |JoinFields(fs)| <= reader.buf.maxBytes
    requires |JoinFields(fs)| < 0x1_0000 && DecodesExactly(|JoinFields(fs)|)
    requires out.pos + 2 + |JoinFields(fs)| <= out.limit
    ensures var packed := lb.(buf := PackAll(Clear(lb.buf), fs).0);
            var (o, p) := LWrite(packed, out);
            var (rb, s, q) := LRead(reader, Reopen(o, out.pos));
            q == out.pos && UnpackAll(rb.buf, |fs|).2 == fs
  {
    PackUnpackRoundTrip(lb.buf, fs);
    var packed := lb.(buf := PackAll(Clear(lb.buf), fs).0);
    WriteThenReadRecord(packed, reader, out);
    var rb := LRead(reader, Reopen(LWrite(packed, out).0, out.pos)).0;
    assert rb.buf.Content() == JoinFields(fs);
    UnpackContentFields(rb.buf, fs);
  }
}

=== FILE: record_buffer.dfy ===
/** The field-level half of `PostalCodeBuffer`: a byte buffer of nominal
    capacity `maxBytes` holding `length` valid bytes, with a cursor
    `nextByte` shared by `pack` (append a field and a ',') and `unpack`
    (cut the next ','-terminated field). Both framings use these
    operations unchanged. */
module RecordBuffer {
  import opened Bytes

  /** `mem` is the heap array as far as anything has been stored in it.
      Storing past its end grows it, so a write beyond `maxBytes` (which
      the C++ code can perform) stays visible as `|mem| > maxBytes`; a cell
      never stored reads as NUL. */
  datatype Buffer = Buffer(maxBytes: int, mem: seq<Byte>, nextByte: nat, length: nat)
  {
    predicate Valid()
    {
      length <= |mem|
    }

    /** The bytes the buffer currently holds. */
    function Content(): seq<Byte>
      requires Valid()
    {
      mem[..length]
    }

    /** `buffer[i]`, for any index the code reads. */
    function At(i: nat): Byte
    {
      ByteAt(mem, i)
    }
  }

  /** `PostalCodeBuffer(mb)`: an empty buffer of capacity `mb`. */
  function NewBuffer(mb: int): (b: Buffer)
    ensures b.Valid() && b.maxBytes == mb && b.Content() == [] && b.nextByte == 0
  {
    Buffer(mb, [], 0, 0)
  }

  /** `clear()`: empties the buffer without touching capacity or storage. */
  function Clear(b: Buffer): (r: Buffer)
    ensures r.Valid() && r.Content() == [] && r.nextByte == 0
    ensures r.maxBytes == b.maxBytes && r.mem == b.mem
  {
    b.(nextByte := 0, length := 0)
  }

  lemma ClearIdempotent(b: Buffer)
    ensures Clear(Clear(b)) == Clear(b)
  {
  }

  /** `b` after the C++ sequence `buffer[length] = c; length += 1`. */
  function Append(b: Buffer, c: Byte): (r: Buffer)
    requires b.Valid()
    ensures r.Valid() && r.Content() == b.Content() + [c]
    ensures r.maxBytes == b.maxBytes && r.nextByte == b.nextByte
  {
    var m := Overwrite(b.mem, b.length, [c]);
    assert m[..b.length + 1] == b.Content() + [c] by {
      assert m[b.length..b.length + 1] == [c];
      assert forall i :: 0 <= i < b.length ==> m[i] == b.mem[i];
    }
    b.(mem := m, length := b.length + 1)
  }

  /** `b` after `bytes` have been stored from offset 0 and become its
      content, with the cursor at the start. */
  function Load(b: Buffer, bytes: seq<Byte>): (r: Buffer)
    ensures r.Valid() && r.Content() == bytes && r.nextByte == 0
    ensures r.maxBytes == b.maxBytes
    ensures r.mem[|bytes|..] == ByteTail(b.mem, |bytes|)
  {
    var m := Overwrite(b.mem, 0, bytes);
    assert m[..|bytes|] == bytes;
    assert m[|bytes|..] == ByteTail(b.mem, |bytes|);
    b.(mem := m, nextByte := 0, length := |bytes|)
  }

  /** The storage beyond index `n`, unchanged by a store of `n` bytes at 0. */
  function ByteTail(m: seq<Byte>, n: nat): seq<Byte>
  {
    if n < |m| then m[n..] else []
  }

  /** The length `pack` uses: `size` when given (non-negative), else `strlen(field)`. */
  function PackLength(field: seq<Byte>, size: int): nat
  {
    if size >= 0 then size else Strlen(field)
  }

  /** `pack(field, size)`: returns the packed length, or -1. The cursor is
      advanced before the capacity test, so an overflowing call leaves
      `nextByte` moved on while `length` and the bytes stay as they were. */
  function Pack(b: Buffer, field: seq<Byte>, size: int := -1): (r: (Buffer, int))
    requires b.Valid()
    ensures r.0.Valid() && r.0.maxBytes == b.maxBytes
    // a declared size longer than the C string: nothing changes
    ensures size > Strlen(field) ==> r == (b, -1)
    // success: the field prefix and one ',' are stored at the old cursor
    ensures r.1 != -1 ==>
              && r.1 == PackLength(field, size) <= Strlen(field)
              && r.0.nextByte == r.0.length == b.nextByte + r.1 + 1 <= b.maxBytes
              && r.0.mem[b.nextByte..b.nextByte + r.1] == field[..r.1]
              && r.0.At(b.nextByte + r.1) == FieldDelim
    ensures r.1 != -1 && b.nextByte <= |b.mem| ==> r.0.mem[..b.nextByte] == b.mem[..b.nextByte]
    ensures r.1 != -1 && b.nextByte <= |b.mem| ==>
              r.0.Content() == b.mem[..b.nextByte] + field[..r.1] + [FieldDelim]
    // overflow: only the cursor moves
    ensures size <= Strlen(field) && b.nextByte + PackLength(field, size) + 1 > b.maxBytes ==>
              r == (b.(nextByte := b.nextByte + PackLength(field, size) + 1), -1)
    ensures r.1 == -1 || r.1 >= 0
    // a field within the C string that fits is always packed
    ensures r.1 != -1 <==> size <= Strlen(field) && b.nextByte + PackLength(field, size) + 1 <= b.maxBytes
  {
    var len: int := PackLength(field, size);
    if len > Strlen(field) then (b, -1)
    else
      var start := b.nextByte;
      var next := start + len + 1;
      if next > b.maxBytes then (b.(nextByte := next), -1)
      else
        var m := Overwrite(b.mem, start, field[..len] + [FieldDelim]);
        OverwriteTerminated(b.mem, start, field[..len], FieldDelim);
        (b.(mem := m, nextByte := next, length := next), len)
  }

  /** The index where the field starting at `i` ends: the first position
      from `i` on that is at `length` or holds a ','. */
  function FieldEnd(b: Buffer, i: nat): (e: nat)
    ensures i <= e
    ensures i <= b.length ==> e <= b.length
    ensures i >= b.length ==> e == i
    ensures forall k :: i <= k < e ==> b.At(k) != FieldDelim
    ensures e < b.length ==> b.At(e) == FieldDelim
    decreases b.length - i
  {
    if i >= b.length || b.At(i) == FieldDelim then i else FieldEnd(b, i + 1)
  }

  /** `unpack(field, strLen)`: returns the field length, or -1. The field is
      accepted only if the byte where the scan stopped is a ',', which is
      examined even when the scan stopped at `length`, i.e. one byte past the
      content. */
  function Unpack(b: Buffer, strLen: int := -1): (r: (Buffer, int, seq<Byte>))
    requires b.Valid()
    ensures r.0.Valid()
    // a ','-terminated field short enough for the caller's array is cut;
    // anything else is refused
    ensures r.1 != -1 <==>
              && b.At(FieldEnd(b, b.nextByte)) == FieldDelim
              && (strLen == -1 || FieldEnd(b, b.nextByte) - b.nextByte < strLen)
    ensures r.1 == -1 ==> r.0 == b
    ensures r.1 != -1 ==>
              && r.1 == FieldEnd(b, b.nextByte) - b.nextByte == |r.2|
              && FieldDelim !in r.2
              && (forall k :: 0 <= k < r.1 ==> r.2[k] == b.At(b.nextByte + k))
              && r.0 == b.(nextByte := b.nextByte + r.1 + 1)
  {
    var start := FieldEnd(b, b.nextByte);
    var fieldLen := start - b.nextByte;
    if (fieldLen < strLen || strLen == -1) && b.At(start) == FieldDelim then
      var f := seq(fieldLen, k requires 0 <= k < fieldLen => b.At(b.nextByte + k));
      (b.(nextByte := start + 1), fieldLen, f)
    else
      (b, -1, [])
  }

  /** `operator=`: a new array (of the source's capacity) is allocated only
      when the destination's capacity is below the source's length, so an
      assigned buffer may keep a capacity smaller than the source's. */
  function Assign(dst: Buffer, src: Buffer): (r: Buffer)
    requires src.Valid()
    ensures r.Valid() && r.Content() == src.Content()
    ensures r.nextByte == src.nextByte
    ensures r.maxBytes == if dst.maxBytes < src.length then src.maxBytes else dst.maxBytes
    ensures src.length <= src.maxBytes ==> r.length <= r.maxBytes
    // without reallocation the destination's bytes past the copy survive
    ensures dst.maxBytes >= src.length ==> r.mem[src.length..] == ByteTail(dst.mem, src.length)
  {
    if dst.maxBytes < src.length then
      Load(NewBuffer(src.maxBytes), src.Content()).(nextByte := src.nextByte)
    else
      Load(dst, src.Content()).(nextByte := src.nextByte)
  }

  /** Unpacking an assigned copy cuts the same field as unpacking the
      source, when that field ends inside the content. (A scan that reaches
      `length` examines the byte past the content, where the copy's stale
      storage may differ from the source's.) */
  lemma AssignUnpack(dst: Buffer, src: Buffer, strLen: int)
    requires src.Valid() && src.nextByte <= src.length
    requires FieldEnd(src, src.nextByte) < src.length
    ensures var c := Assign(dst, src);
            && Unpack(c, strLen).1 == Unpack(src, strLen).1
            && Unpack(c, strLen).2 == Unpack(src, strLen).2
            && Unpack(c, strLen).0.nextByte == Unpack(src, strLen).0.nextByte
  {
    var c := Assign(dst, src);
    AssignAgrees(dst, src);
    UnpackAgree(c, src, strLen);
  }

  /** An assigned copy reads like its source everywhere in the content. */
  lemma AssignAgrees(dst: Buffer, src: Buffer)
    requires src.Valid()
    ensures var c := Assign(dst, src);
            && c.length == src.length
            && forall k :: 0 <= k < src.length ==> c.At(k) == src.At(k)
  {
    var c := Assign(dst, src);
    forall k | 0 <= k < src.length ensures c.At(k) == src.At(k) {
      assert c.mem[k] == c.Content()[k];
      assert src.mem[k] == src.Content()[k];
    }
  }

  /** Two buffers with the same cursor and length that agree on the content
      from the cursor on unpack the same field, when it ends inside the
      content. */
  lemma UnpackAgree(a: Buffer, b: Buffer, strLen: int)
    requires a.Valid() && b.Valid()
    requires a.length == b.length && a.nextByte == b.nextByte <= b.length
    requires forall k :: b.nextByte <= k < b.length ==> a.At(k) == b.At(k)
    requires FieldEnd(b, b.nextByte) < b.length
    ensures Unpack(a, strLen).1 == Unpack(b, strLen).1
    ensures Unpack(a, strLen).2 == Unpack(b, strLen).2
    ensures Unpack(a, strLen).0.nextByte == Unpack(b, strLen).0.nextByte
  {
    FieldEndAgree(a, b, b.nextByte);
    var ra := Unpack(a, strLen);
    var rb := Unpack(b, strLen);
    if rb.1 != -1 {
      assert ra.1 == rb.1;
      forall k | 0 <= k < ra.1 ensures ra.2[k] == rb.2[k] {
        assert a.At(b.nextByte + k) == b.At(b.nextByte + k);
      }
    }
  }

  /** Two buffers of equal length that agree on the content from `i` on
      find the same field end from `i`. */
  lemma {:induction false} FieldEndAgree(a: Buffer, b: Buffer, i: nat)
    requires a.length == b.length && i <= a.length
    requires forall k :: i <= k < a.length ==> a.At(k) == b.At(k)
    ensures FieldEnd(a, i) == FieldEnd(b, i)
    decreases a.length - i
  {
    if i < a.length && a.At(i) != FieldDelim {
      FieldEndAgree(a, b, i + 1);
    }
  }

  /** The record layout `pack` produces: each field followed by one ','. */
  function JoinFields(fs: seq<seq<Byte>>): seq<Byte>
  {
    Terminated(fs, FieldDelim)
  }

  /** Fields `pack` can store and `unpack` give back: no ',' and no NUL. */
  predicate PlainField(f: seq<Byte>)
  {
    FieldDelim !in f && Nul !in f
  }

  /** `pack(fs[0]); pack(fs[1]); ...` with the default size, returning the
      final buffer and every call's result. */
  function PackAll(b: Buffer, fs: seq<seq<Byte>>): (r: (Buffer, seq<int>))
    requires b.Valid()
    ensures r.0.Valid() && |r.1| == |fs|
    decreases |fs|
  {
    if |fs| == 0 then (b, [])
    else
      var (b1, n) := Pack(b, fs[0]);
      var (b2, ns) := PackAll(b1, fs[1..]);
      (b2, [n] + ns)
  }

  /** `n` successive `unpack()` calls, returning the final buffer, every
      call's result and the fields cut. */
  function UnpackAll(b: Buffer, n: nat): (r: (Buffer, seq<int>, seq<seq<Byte>>))
    requires b.Valid()
    ensures r.0.Valid() && |r.1| == n && |r.2| == n
    decreases n
  {
    if n == 0 then (b, [], [])
    else
      var (b1, k, f) := Unpack(b);
      var (b2, ks, gs) := UnpackAll(b1, n - 1);
      (b2, [k] + ks, [f] + gs)
  }

  function Lengths(fs: seq<seq<Byte>>): (ns: seq<int>)
    ensures |ns| == |fs|
    ensures forall i :: 0 <= i < |fs| ==> ns[i] == |fs[i]|
  {
    seq(|fs|, i requires 0 <= i < |fs| => |fs[i]|)
  }

  lemma JoinFieldsCons(fs: seq<seq<Byte>>)
    requires |fs| > 0
    ensures JoinFields(fs) == fs[0] + [FieldDelim] + JoinFields(fs[1..])
  {
  }

  /** One plain field packed at the end of the content. */
  lemma PackPlainField(b: Buffer, f: seq<Byte>)
    requires b.Valid() && b.nextByte == b.length
    requires PlainField(f)
    requires b.length + |f| + 1 <= b.maxBytes
    ensures Pack(b, f).1 == |f|
    ensures Pack(b, f).0.Content() == b.Content() + f + [FieldDelim]
    ensures Pack(b, f).0.nextByte == Pack(b, f).0.length
  {
    assert f[..|f|] == f;
  }

  lemma PackAllCons(b: Buffer, fs: seq<seq<Byte>>)
    requires b.Valid() && |fs| > 0
    ensures PackAll(b, fs).0 == PackAll(Pack(b, fs[0]).0, fs[1..]).0
    ensures PackAll(b, fs).1 == [Pack(b, fs[0]).1] + PackAll(Pack(b, fs[0]).0, fs[1..]).1
  {
  }

  /** Packing plain fields that fit, starting where the content ends,
      appends exactly their joined layout and every call succeeds. */
  lemma {:induction false} PackAllAppends(b: Buffer, fs: seq<seq<Byte>>)
    requires b.Valid() && b.nextByte == b.length
    requires forall i :: 0 <= i < |fs| ==> PlainField(fs[i])
    requires b.length + |JoinFields(fs)| <= b.maxBytes
    ensures PackAll(b, fs).0.Content() == b.Content() + JoinFields(fs)
    ensures PackAll(b, fs).0.nextByte == PackAll(b, fs).0.length
    ensures PackAll(b, fs).1 == Lengths(fs)
    decreases |fs|
  {
    if |fs| == 0 {
      assert PackAll(b, fs).1 == Lengths(fs);
    } else {
      PackAllStep(b, fs);
      var b1 := Pack(b, fs[0]).0;
      PackAllAppends(b1, fs[1..]);
      PackAllCons(b, fs);
      LengthsCons(fs);
    }
  }

  lemma PackAllStep(b: Buffer, fs: seq<seq<Byte>>)
    requires b.Valid() && b.nextByte == b.length && |fs| > 0
    requires forall i :: 0 <= i < |fs| ==> PlainField(fs[i])
    requires b.length + |JoinFields(fs)| <= b.maxBytes
    ensures Pack(b, fs[0]).1 == |fs[0]|
    ensures Pack(b, fs[0]).0.Valid()
    ensures Pack(b, fs[0]).0.nextByte == Pack(b, fs[0]).0.length
    ensures forall i :: 0 <= i < |fs[1..]| ==> PlainField(fs[1..][i])
    ensures Pack(b, fs[0]).0.length + |JoinFields(fs[1..])| <= Pack(b, fs[0]).0.maxBytes
    ensures Pack(b, fs[0]).0.Content() + JoinFields(fs[1..]) == b.Content() + JoinFields(fs)
  {
    var f := fs[0];
    JoinFieldsCons(fs);
    PackPlainField(b, f);
    var b1 := Pack(b, f).0;
    Regroup(b.Content(), f, JoinFields(fs[1..]));
    forall i | 0 <= i < |fs[1..]| ensures PlainField(fs[1..][i]) {
      assert fs[1..][i] == fs[i + 1];
    }
  }

  lemma Regroup(c: seq<Byte>, f: seq<Byte>, j: seq<Byte>)
    ensures c + f + [FieldDelim] + j == c + (f + [FieldDelim] + j)
  {
  }

  lemma LengthsCons(fs: seq<seq<Byte>>)
    requires |fs| > 0
    ensures Lengths(fs) == [|fs[0]|] + Lengths(fs[1..])
  {
  }

  /** Unpacking a content that holds `JoinFields(fs)` at the cursor gives
      back exactly the fields, each call returning its field's length. */
  lemma {:induction false} UnpackAllFields(b: Buffer, fs: seq<seq<Byte>>)
    requires b.Valid()
    requires forall i :: 0 <= i < |fs| ==> FieldDelim !in fs[i]
    requires b.nextByte + |JoinFields(fs)| <= b.length
    requires b.mem[b.nextByte..b.nextByte + |JoinFields(fs)|] == JoinFields(fs)
    ensures UnpackAll(b, |fs|).2 == fs
    ensures UnpackAll(b, |fs|).1 == Lengths(fs)
    ensures UnpackAll(b, |fs|).0.nextByte == b.nextByte + |JoinFields(fs)|
    decreases |fs|
  {
    if |fs| > 0 {
      var rest := fs[1..];
      var b1 := UnpackAllStep(b, fs);
      UnpackAllFields(b1, rest);
      var u := UnpackAll(b1, |rest|);
      assert u.2 == rest && u.1 == Lengths(rest);
      assert UnpackAll(b, |fs|) == (u.0, [|fs[0]|] + u.1, [fs[0]] + u.2);
      LengthsCons(fs);
      assert fs == [fs[0]] + rest;
    }
  }

  /** One step of `UnpackAllFields`: the first field comes out and the
      layout of the others is left at the cursor. */
  lemma UnpackAllStep(b: Buffer, fs: seq<seq<Byte>>) returns (b1: Buffer)
    requires b.Valid() && |fs| > 0
    requires forall i :: 0 <= i < |fs| ==> FieldDelim !in fs[i]
    requires b.nextByte + |JoinFields(fs)| <= b.length
    requires b.mem[b.nextByte..b.nextByte + |JoinFields(fs)|] == JoinFields(fs)
    ensures b1 == Unpack(b).0 && b1.Valid()
    ensures Unpack(b).1 == |fs[0]| && Unpack(b).2 == fs[0]
    ensures b1.nextByte + |JoinFields(fs[1..])| <= b1.length
    ensures b1.mem[b1.nextByte..b1.nextByte + |JoinFields(fs[1..])|] == JoinFields(fs[1..])
    ensures forall i :: 0 <= i < |fs[1..]| ==> FieldDelim !in fs[1..][i]
    ensures b1.nextByte + |JoinFields(fs[1..])| == b.nextByte + |JoinFields(fs)|
    ensures UnpackAll(b, |fs|) == (UnpackAll(b1, |fs| - 1).0, [|fs[0]|] + UnpackAll(b1, |fs| - 1).1, [fs[0]] + UnpackAll(b1, |fs| - 1).2)
  {
    var f, rest := fs[0], fs[1..];
    JoinFieldsCons(fs);
    UnpackOneField(b, f, JoinFields(rest));
    b1 := Unpack(b).0;
    forall i | 0 <= i < |rest| ensures FieldDelim !in rest[i] {
      assert rest[i] == fs[i + 1];
    }
  }

  /** `unpack` at a field `f` followed by its ',' and then by `t`. */
  lemma UnpackOneField(b: Buffer, f: seq<Byte>, t: seq<Byte>)
    requires b.Valid() && FieldDelim !in f
    requires b.nextByte + |f| + 1 + |t| <= b.length
    requires b.mem[b.nextByte..b.nextByte + |f| + 1 + |t|] == f + [FieldDelim] + t
    ensures Unpack(b) == (b.(nextByte := b.nextByte + |f| + 1), |f|, f)
    ensures b.mem[b.nextByte + |f| + 1..b.nextByte + |f| + 1 + |t|] == t
  {
    var p := b.nextByte;
    var j := f + [FieldDelim] + t;
    forall k | 0 <= k < |f| ensures b.At(p + k) == f[k] {
      assert b.mem[p + k] == j[k];
    }
    forall k | p <= k < p + |f| ensures b.At(k) != FieldDelim {
      assert b.At(p + (k - p)) == f[k - p];
    }
    assert b.At(p + |f|) == FieldDelim by {
      assert b.mem[p + |f|] == j[|f|];
    }
    FieldEndAt(b, p, |f|);
    var r := Unpack(b);
    assert r.1 == |f|;
    assert r.2 == f by {
      forall k | 0 <= k < |f| ensures r.2[k] == f[k] {
        assert r.2[k] == b.At(p + k);
      }
    }
    assert j[|f| + 1..] == t;
    assert b.mem[p..p + |j|][|f| + 1..] == b.mem[p + |f| + 1..p + |j|];
  }

  /** A buffer whose content starts with the layout of `fs` unpacks, from
      offset 0, to `fs`. */
  lemma UnpackContentFields(b: Buffer, fs: seq<seq<Byte>>)
    requires b.Valid() && b.nextByte == 0
    requires forall i :: 0 <= i < |fs| ==> FieldDelim !in fs[i]
    requires JoinFields(fs) <= b.Content()
    ensures UnpackAll(b, |fs|).2 == fs
  {
    var j := JoinFields(fs);
    assert b.mem[0..|j|] == b.Content()[..|j|];
    UnpackAllFields(b, fs);
  }

  lemma {:induction false} FieldEndAt(b: Buffer, i: nat, n: nat)
    requires i + n < b.length
    requires forall k :: i <= k < i + n ==> b.At(k) != FieldDelim
    requires b.At(i + n) == FieldDelim
    ensures FieldEnd(b, i) == i + n
    decreases n
  {
    if n > 0 {
      FieldEndAt(b, i + 1, n - 1);
    }
  }

  /** Round trip of the field codec: plain fields packed into a cleared
      buffer form the content `f1,f2,...,fn,`, and unpacking that content
      from offset 0 yields `f1 ... fn` in order. */
  lemma PackUnpackRoundTrip(b: Buffer, fs: seq<seq<Byte>>)
    requires b.Valid()
    requires forall i :: 0 <= i < |fs| ==> PlainField(fs[i])
    requires |JoinFields(fs)| <= b.maxBytes
    ensures PackAll(Clear(b), fs).0.Content() == JoinFields(fs)
    ensures PackAll(Clear(b), fs).1 == Lengths(fs)
    ensures UnpackAll(PackAll(Clear(b), fs).0.(nextByte := 0), |fs|).2 == fs
  {
    var c := Clear(b);
    PackAllAppends(c, fs);
    var p := PackAll(c, fs).0;
    assert p.Content() == JoinFields(fs) by {
      assert c.Content() == [];
    }
    UnpackContentFields(p.(nextByte := 0), fs);
  }

  /** The C++ `unpack` accepts a field ending one byte past the content when
      stale storage there holds a ',', moving the cursor beyond `length`. */
  lemma UnpackReadsPastContent()
    ensures var b := Buffer(10, "ab,,", 3, 3);
            var r := Unpack(b);
            r.1 == 0 && r.0.nextByte == 4 > b.length
  {
    var b := Buffer(10, "ab,,", 3, 3);
    assert FieldEnd(b, 3) == 3;
  }
}

=== FILE: streams.dfy ===
/** The slice of `std::istream` / `std::ostream` behaviour the codecs rely
    on, over an in-memory byte sequence: a position, the `eofbit` and
    `failbit` flags, `get`, `read`, `seekg`/`tellg`, `write`,
    `seekp`/`tellp` and `clear`. A sink has a `limit` standing for the room
    the device has: a write that would cross it is a sink fault. */
module Streams {
  import opened Bytes

  datatype InStream = InStream(data: seq<Byte>, pos: nat, eof: bool, fail: bool)
  {
    predicate Valid()
    {
      pos <= |data|
    }

    /** `good()`: neither end-of-file nor failure has been recorded. */
    predicate Good()
    {
      !eof && !fail
    }
  }

  /** `get()`: the next byte as a non-negative `int`, or -1 (EOF) after
      recording failure; reading past the end also records end-of-file. */
  function Get(s: InStream): (r: (InStream, int))
    requires s.Valid()
    ensures r.0.Valid() && r.0.data == s.data
    ensures r.1 != -1 <==> s.Good() && s.pos < |s.data|
    ensures r.1 != -1 ==> r.1 == s.data[s.pos] as int && r.0 == s.(pos := s.pos + 1)
    ensures r.1 == -1 ==> r.0.pos == s.pos && r.0.fail && (s.Good() ==> r.0.eof)
  {
    if !s.Good() then (s.(fail := true), -1)
    else if s.pos < |s.data| then (s.(pos := s.pos + 1), s.data[s.pos] as int)
    else (s.(eof := true, fail := true), -1)
  }

  /** The `char` an `int` returned by `get()` is narrowed to. */
  function Narrow(c: int): Byte
    requires -1 <= c < 256
  {
    if c == -1 then EofChar else c as char
  }

  /** `read(buf, n)`: up to `n` bytes; a short read records end-of-file and failure. */
  function ReadN(s: InStream, n: nat): (r: (InStream, seq<Byte>))
    requires s.Valid()
    ensures r.0.Valid() && r.0.data == s.data
    ensures r.0.Good() <==> s.Good() && s.pos + n <= |s.data|
    ensures r.0.Good() ==> r.1 == s.data[s.pos..s.pos + n] && r.0 == s.(pos := s.pos + n)
    ensures s.pos <= r.0.pos
    ensures s.Good() ==> r.1 == s.data[s.pos..r.0.pos]
  {
    if !s.Good() then (s.(fail := true), [])
    else if s.pos + n <= |s.data| then (s.(pos := s.pos + n), s.data[s.pos..s.pos + n])
    else (s.(pos := |s.data|, eof := true, fail := true), s.data[s.pos..])
  }

  /** `tellg()`: the position, or -1 once the stream is not good. */
  function Tellg(s: InStream): int
  {
    if s.Good() then s.pos else -1
  }

  /** `seekg(p, ios::beg)`: clears end-of-file, then moves unless failed; a
      target outside the data records failure. */
  function Seekg(s: InStream, p: int): (r: InStream)
    requires s.Valid()
    ensures r.Valid() && r.data == s.data && !r.eof
    ensures !r.fail <==> !s.fail && 0 <= p <= |s.data|
    ensures !r.fail ==> r.pos == p
  {
    var s1 := s.(eof := false);
    if s1.fail then s1
    else if 0 <= p <= |s.data| then s1.(pos := p)
    else s1.(fail := true)
  }

  /** `clear()`: forget every recorded error. */
  function ClearFlags(s: InStream): InStream
  {
    s.(eof := false, fail := false)
  }

  datatype OutStream = OutStream(data: seq<Byte>, pos: nat, fail: bool, limit: nat)
  {
    predicate Valid()
    {
      pos <= |data|
    }
  }

  /** `write(b, n)`: nothing happens on a failed stream; a write that would
      cross the sink's limit records failure and stores nothing. */
  function Write(s: OutStream, b: seq<Byte>): (r: OutStream)
    requires s.Valid()
    ensures r.Valid() && r.limit == s.limit && |s.data| <= |r.data|
    ensures !r.fail <==> !s.fail && s.pos + |b| <= s.limit
    ensures !r.fail ==> r.pos == s.pos + |b| && r.data == Overwrite(s.data, s.pos, b)
    ensures r.fail ==> r.data == s.data && r.pos == s.pos
  {
    if s.fail then s
    else if s.pos + |b| <= s.limit then s.(data := Overwrite(s.data, s.pos, b), pos := s.pos + |b|)
    else s.(fail := true)
  }

  /** `seekp(p, ios::beg)`. */
  function Seekp(s: OutStream, p: int): (r: OutStream)
    requires s.Valid()
    ensures r.Valid() && r.data == s.data && r.limit == s.limit
    ensures !r.fail <==> !s.fail && 0 <= p <= |s.data|
    ensures !r.fail ==> r.pos == p
  {
    if s.fail then s
    else if 0 <= p <= |s.data| then s.(pos := p)
    else s.(fail := true)
  }

  /** `tellp()`: the position, or -1 once the stream has failed. */
  function Tellp(s: OutStream): int
  {
    if s.fail then -1 else s.pos
  }

  /** The bytes of a sink read back from position `p` by a fresh input stream. */
  function Reopen(s: OutStream, p: nat): (r: InStream)
    requires p <= |s.data|
    ensures r.Valid() && r.Good() && r.data == s.data
  {
    InStream(s.data, p, false, false)
  }
}
